=== FILE: README.md ===
# CantonTrack backend core, modelled in Dafny

CantonTrack stores the CantonScan statistics as one time series per metric. The PHP backend
has three parts, and this project models each of them:

- `app:fetch-cantonscan-stats` fetches the upstream JSON document. It turns every key into a
  table name, ensures the table exists and upserts one row per key at the cycle's timestamp,
  all in one transaction.
- `app:setup-cantonscan-schema` creates the same tables ahead of time, one key at a time, and
  isolates each key's failures.
- `StatsApiController` serves `GET /api/stats`, `GET /api/stats/{metric}` and
  `GET /api/stats/{metric}/latest` from those tables.

The database is an immutable value:

- A `Store` maps table names to tables.
- A `Table` is a sequence of rows, oldest insertion first, plus one flag. The flag says whether
  the table has a unique key on `captured_at`.
- A `Row` holds an integer timestamp and an optional decimal string.

Rows are kept as a sequence, not a map, because the unique key is not always there. On MySQL,
`app:setup-cantonscan-schema` creates tables without it, and `CREATE TABLE IF NOT EXISTS` in the
fetch command then leaves them that way. The upsert then degenerates into a plain insert and
accumulates duplicates. On PostgreSQL, the fetch command's separate `CREATE UNIQUE INDEX IF NOT
EXISTS` adds the key to such a table.

A failing statement is modelled as a set of faults. Each fault names a statement by the index
of its key and its position among that key's statements.

- The fetch command issues 4 statements per key on PostgreSQL and 2 on MySQL. It runs inside
  one transaction, so any fault rolls the whole cycle back.
- The setup command issues 2 DDL statements per key on PostgreSQL and 1 on MySQL. A fault there
  only skips that key's count, and the table exists whenever its `CREATE TABLE` ran.

Things outside PHP's control are parameters:

- the HTTP response, which arrives as an already decoded `Fetched` value;
- the `number_format` rendering of a float: fixed-point digits when the float is finite, and the
  raw text `number_format` hands back for an infinite one;
- the database's text for a timestamp;
- PHP's date parser, the ATOM formatter and the database's cast of a `from`/`to` bound.

Modules, one per file:

- `Wrappers`: `Option` and `Result`.
- `TableNames`: the sanitiser, in its two spellings.
- `Upstream`: the decoded document.
- `Numeric`: `toNumericString` and PHP 8's `is_numeric`.
- `Database`: the store and its DDL and upsert.
- `FetchCommand`, `SetupCommand` and `StatsApi`: the three parts listed above.
- `Collation`: the name order.
- `Lifecycle`: how the commands and the endpoints meet.

Points where the code behaves other than one might expect, all modelled as the code has them:

- The document may be any JSON array, so a JSON list is accepted too.
- MySQL tables made by `app:setup-cantonscan-schema` have no unique key.
- Setup failures are isolated per key and do not abort the command.
- A `from`, `to` or `captured_at` of `"0"` counts as absent, by PHP truthiness.
- An HTTP error status is not a fetch failure. Both commands call `toArray(false)`, so a 4xx or
  5xx response whose body is a JSON object is ingested like any other document. Only a request
  that throws (network, timeout, a body that is not a JSON array) is `RequestFailed`.
- A float that is infinite (`1e400` in the document, or the string `"1e400"`) is normalised to
  `number_format`'s non-digit text for it. That text, not a decimal, is bound to the upsert. What
  the numeric `value` column makes of it is the database's business (see Database.Upsert under
  "## Left out").

## Model

| member | source | states |
|---|---|---|
| TableNames.SanitiserCopiesAgree | backend/src/Controller/StatsApiController.php:170-174 | The controller replaces and then lower-cases, the commands lower-case and then replace; both give the same table name for every key. |
| TableNames.TableNameShape | backend/src/Command/FetchCantonscanStatsCommand.php:54-57 | A table name is `cs_` followed by `[a-z0-9_]` characters only; a key is skipped exactly when it is empty, and every other key yields a valid table name (an all-punctuation key gives `cs__`). |
| TableNames.CollapseRunsShape | backend/src/Command/FetchCantonscanStatsCommand.php:54 | Replacing runs of non-word characters by `_` leaves only word characters, never lengthens the key, and is empty only for the empty key. |
| TableNames.LowerCommutesWithCollapse | backend/src/Controller/StatsApiController.php:172 | Lower-casing commutes with the run replacement, because the pattern is case-insensitive and lower-casing keeps word characters word characters. |
| TableNames.SanitiserIdempotent | backend/src/Command/FetchCantonscanStatsCommand.php:54 | Sanitising the suffix of a table name gives the same table name back. |
| TableNames.SafeNameIsFixed | backend/src/Controller/StatsApiController.php:170-174 | A suffix already made of `[a-z0-9_]` maps to `cs_` followed by itself under both sanitisers. |
| TableNames.ListedNameRoundTrip | backend/src/Controller/StatsApiController.php:42-43 | The metric name `list` derives from a valid table name maps back to that table under both sanitisers and is not skipped. |
| Numeric.ToNumericString | backend/src/Command/FetchCantonscanStatsCommand.php:108-122 | Null exactly for non-int/float/string values and for strings not numeric after removing `,` and spaces. An int, a float, or a numeric string with its separators removed gives the canonical form of its rendering when that is finite, and the trimmed raw text when it is not. Every result is non-empty and never ends in `.`. A finite rendering always yields a canonical decimal with no trailing `0` after a `.`. |
| Numeric.TrimNumberIsCanonical | backend/src/Command/FetchCantonscanStatsCommand.php:112 | The double `rtrim` followed by `?: '0'` turns an 18-place rendering into the independently defined canonical decimal (sign, whole digits, significant fraction digits). |
| Numeric.CanonicalShape | backend/src/Command/FetchCantonscanStatsCommand.php:112 | The canonical decimal is non-empty, has no trailing `.`, no trailing `0` after a `.`, and is an optional `-` followed by digits and an optional fraction. |
| Numeric.Normalised | backend/src/Command/FetchCantonscanStatsCommand.php:112 | The trimming of any rendering is non-empty and never ends in `.`. For a finite rendering it equals the canonical decimal and has its shape; a non-finite rendering's text is trimmed as it is. |
| Numeric.TrimNumber | backend/src/Command/FetchCantonscanStatsCommand.php:112 | Whatever text `number_format` returns, `rtrim(rtrim(…, '0'), '.') ?: '0'` is non-empty and never ends in `.`. |
| Numeric.TrimRight | backend/src/Command/FetchCantonscanStatsCommand.php:112 | `rtrim` with one character yields a prefix of its input that does not end in that character. |
| Numeric.TrimRightRemovesOnly | backend/src/Command/FetchCantonscanStatsCommand.php:112 | Everything `rtrim` removes is the trimmed character. |
| Numeric.TrimZerosAfterPoint | backend/src/Command/FetchCantonscanStatsCommand.php:112 | Trimming zeros from a number with a point only touches the fraction. |
| Numeric.TrimPointAfterDigits | backend/src/Command/FetchCantonscanStatsCommand.php:112 | Trimming points removes the point only when no fraction digit is left. |
| Numeric.StripSeparators | backend/src/Command/FetchCantonscanStatsCommand.php:115 | No `,` or space is left, and every other character occurs as often as before. |
| Numeric.StripSeparatorsConcat | backend/src/Command/FetchCantonscanStatsCommand.php:115 | Removing separators distributes over concatenation. |
| Numeric.DigitsAreNumeric | backend/src/Command/FetchCantonscanStatsCommand.php:116 | Every non-empty run of digits is numeric. |
| Numeric.NumericHasDigit | backend/src/Command/FetchCantonscanStatsCommand.php:116 | A numeric string contains at least one digit, so the empty string and lone signs or points are rejected. |
| Database.CreateTableIfNotExists | backend/src/Command/FetchCantonscanStatsCommand.php:125-147 | The table exists afterwards. An existing table, rows and key included, is unchanged, and a new one is empty with the requested key. |
| Database.CreateUniqueIndexIfNotExists | backend/src/Command/FetchCantonscanStatsCommand.php:150-156 | Succeeds exactly when the table already has the key or its timestamps are distinct. It then adds the key and changes nothing else; otherwise it fails with a unique violation. |
| Database.Upsert | backend/src/Command/FetchCantonscanStatsCommand.php:70-91 | Rows at other timestamps are untouched. With a unique key the table then holds exactly one row at the timestamp, carrying the new value; without one the row is appended. Well-formedness is kept. |
| Database.Overwrite | backend/src/Command/FetchCantonscanStatsCommand.php:72-75 | The conflict branch: rows at the timestamp take the new value and every other row stays in place. |
| Database.OverwriteLaws | backend/src/Command/FetchCantonscanStatsCommand.php:72-75 | Overwriting keeps the rows at other timestamps, and under distinct timestamps leaves exactly the new row at the timestamp. |
| Database.AppendLaws | backend/src/Command/FetchCantonscanStatsCommand.php:83-85 | An insert without a conflict adds one row at the timestamp and keeps the others, and keeps timestamps distinct when none was at it. |
| Database.DistinctAtMostOne | backend/src/Command/FetchCantonscanStatsCommand.php:143 | Under a unique key at most one row sits at any timestamp. |
| FetchCommand.Execute | backend/src/Command/FetchCantonscanStatsCommand.php:26-106 | A failed request or non-array document fails with the store unchanged, and so does any failing statement. Without faults (on PostgreSQL, with distinct timestamps everywhere) the cycle commits. A committed cycle reports one upsert per non-skipped key, creates exactly their tables, writes only at its timestamp and keeps the store well formed. |
| FetchCommand.PrepareTable | backend/src/Command/FetchCantonscanStatsCommand.php:59-65 | The DDL for one key fails only when PostgreSQL cannot add the unique key to an existing table with duplicate timestamps. Otherwise the table exists with its old rows, PostgreSQL gives it the key, and MySQL creates it with the key. |
| FetchCommand.IngestKey | backend/src/Command/FetchCantonscanStatsCommand.php:53-94 | One key's statements fail when any of them is faulted, and succeed when none is and the unique index can be built. |
| FetchCommand.IngestKeyFrame | backend/src/Command/FetchCantonscanStatsCommand.php:59-91 | One key adds its table and changes no other table. |
| FetchCommand.IngestKeyUniqueKey | backend/src/Command/FetchCantonscanStatsCommand.php:59-65 | PostgreSQL leaves the key's table with the unique key, while MySQL keeps the key an existing table had. |
| FetchCommand.IngestKeyOnlyAtNow | backend/src/Command/FetchCantonscanStatsCommand.php:70-91 | One key writes no row away from the cycle's timestamp. |
| FetchCommand.IngestKeyRow | backend/src/Command/FetchCantonscanStatsCommand.php:70-91 | With a unique key the table's only row at the timestamp carries the normalised value; without one the row is appended to an existing table. |
| FetchCommand.IngestKeyWellFormed | backend/src/Command/FetchCantonscanStatsCommand.php:59-91 | One key keeps the store well formed, and on PostgreSQL keeps all timestamps distinct. |
| FetchCommand.CommitCases | backend/src/Command/FetchCantonscanStatsCommand.php:51-102 | The transaction body fails when an ingested key's statement is faulted and succeeds when none is (on PostgreSQL, given distinct timestamps). |
| FetchCommand.IngestCount | backend/src/Command/FetchCantonscanStatsCommand.php:49-93 | The counter equals the number of non-skipped keys, colliding keys counted separately. |
| FetchCommand.IngestTables | backend/src/Command/FetchCantonscanStatsCommand.php:53-65 | A committed body creates exactly the tables of its non-skipped keys and drops none. |
| FetchCommand.IngestUniqueOnPostgres | backend/src/Command/FetchCantonscanStatsCommand.php:150-156 | On PostgreSQL every table a committed cycle touched has the unique key afterwards. |
| FetchCommand.IngestOnlyAtNow | backend/src/Command/FetchCantonscanStatsCommand.php:47-91 | Every row a cycle writes carries the one timestamp taken before the transaction; rows at other timestamps are untouched. |
| FetchCommand.IngestWellFormed | backend/src/Command/FetchCantonscanStatsCommand.php:53-95 | A committed cycle keeps the store well formed. |
| FetchCommand.IngestFailsOnFault | backend/src/Command/FetchCantonscanStatsCommand.php:97-101 | A fault in any ingested key's statements fails the whole body. |
| FetchCommand.IngestSucceedsWithoutFault | backend/src/Command/FetchCantonscanStatsCommand.php:51-97 | Without faults the body succeeds, and on PostgreSQL keeps all timestamps distinct. |
| FetchCommand.IngestLastWins | backend/src/Command/FetchCantonscanStatsCommand.php:53-91 | For keys colliding on one table, the last key's value is the table's only row at the cycle's timestamp when the table has the unique key. |
| SetupCommand.Execute | backend/src/Command/SetupCantonscanSchemaCommand.php:28-69 | Fails exactly when the fetch did, leaving the store unchanged. Otherwise it succeeds whatever the per-key failures. It counts the keys whose DDL fully succeeded, never more than the keys. It adds exactly the tables whose `CREATE TABLE` ran, empty and without a unique key, leaves existing tables untouched and keeps the store well formed. |
| SetupCommand.EnsureTable | backend/src/Command/SetupCantonscanSchemaCommand.php:55-63 | One key counts exactly when none of its DDL failed, and its table exists when `CREATE TABLE` ran; other tables are unchanged. |
| SetupCommand.EnsureAllCount | backend/src/Command/SetupCantonscanSchemaCommand.php:48-64 | The counter equals the number of non-skipped keys whose DDL succeeded, and the loop goes on after a failure. |
| SetupCommand.CountedBound | backend/src/Command/SetupCantonscanSchemaCommand.php:48-66 | The reported count never exceeds the number of keys. |
| SetupCommand.EnsureAllTables | backend/src/Command/SetupCantonscanSchemaCommand.php:49-64 | The loop adds exactly the reached tables, empty and without a unique key, and keeps the existing ones. |
| SetupCommand.EnsureAllKeys | backend/src/Command/SetupCantonscanSchemaCommand.php:49-57 | After the loop the tables are the old ones plus exactly those whose `CREATE TABLE` ran, failed index statements included. |
| SetupCommand.EnsureAllWellFormed | backend/src/Command/SetupCantonscanSchemaCommand.php:50-53 | Setup creates only sanitised table names, so it keeps the store well formed. |
| SetupCommand.EnsureAllNoop | backend/src/Command/SetupCantonscanSchemaCommand.php:81-98 | When every key's table exists the loop changes nothing, whatever fails. |
| SetupCommand.SetupIdempotent | backend/src/Command/SetupCantonscanSchemaCommand.php:75-100 | A second run on the store a first run left behind leaves it unchanged, when the first run created every table. |
| Collation.BelowTotal | backend/src/Controller/StatsApiController.php:25 | The name order compares any two names. |
| Collation.BelowAntisymmetric | backend/src/Controller/StatsApiController.php:25 | Names that are ordered both ways are equal. |
| Collation.BelowTransitive | backend/src/Controller/StatsApiController.php:25 | The name order is transitive. |
| Collation.BelowSharedPrefix | backend/src/Controller/StatsApiController.php:43 | A shared prefix does not change the order, so removing `cs_` keeps the list sorted. |
| Collation.SortNames | backend/src/Controller/StatsApiController.php:25 | The result is strictly ascending and holds exactly the given names. |
| StatsApi.IntCastRoundTrip | backend/src/Controller/StatsApiController.php:64 | The `(int)` cast reads back any decimal integer, with or without a sign. |
| StatsApi.IntCastSigned | backend/src/Controller/StatsApiController.php:64 | The cast reads an unsigned, `+`-signed or `-`-signed decimal as its value, negated for `-`. |
| StatsApi.ClampLimit | backend/src/Controller/StatsApiController.php:65 | The clamp lies in [1, 50000], is the allowed value nearest the requested one, and keeps an allowed value. |
| StatsApi.Limit | backend/src/Controller/StatsApiController.php:64-65 | The limit lies in [1, 50000], and is 1000 when the parameter is absent. |
| StatsApi.LimitReadsDecimal | backend/src/Controller/StatsApiController.php:64-65 | A decimal limit is used as given when in range; 0 becomes 1 and anything above 50000 becomes 50000. |
| StatsApi.Bound | backend/src/Controller/StatsApiController.php:75-84 | An absent or falsy bound imposes nothing. A truthy one is whatever the database's cast makes of it, and an error when the cast fails. |
| StatsApi.Where | backend/src/Controller/StatsApiController.php:75-86 | The filter keeps exactly the rows within the inclusive bounds, each as often as it occurs. |
| StatsApi.WhereAll | backend/src/Controller/StatsApiController.php:75-86 | Without `from` and `to` there is no `WHERE` clause: every row is kept, in place. |
| StatsApi.SortByTime | backend/src/Controller/StatsApiController.php:87 | The result is ascending in `captured_at` and a permutation of the input. |
| StatsApi.SelectSeries | backend/src/Controller/StatsApiController.php:86-103 | The series has min(limit, rows in range) rows, ascending, all within range and drawn from the table. A row in range that appears fewer times in the series than in the table (identical rows counted separately) is explained by the limit: the series is full and ends no later than that row. |
| StatsApi.SeriesWhole | backend/src/Controller/StatsApiController.php:86-103 | When the limit does not bite, the series is exactly the rows in range. |
| StatsApi.SeriesAllRows | backend/src/Controller/StatsApiController.php:86-103 | Without bounds and with a limit covering the table, the series holds every row of the table. |
| StatsApi.SortedPermutationEndsNewest | backend/src/Controller/StatsApiController.php:87 | An ascending ordering of a non-empty table has its last row at the table's newest timestamp. |
| StatsApi.PresentTime | backend/src/Controller/StatsApiController.php:106-115 | `captured_at` is null exactly for falsy text, the ATOM rendering when PHP can parse the text, and the text verbatim when it cannot. |
| StatsApi.PresentValue | backend/src/Controller/StatsApiController.php:118 | `value` is null exactly when the stored value is NULL or empty, and otherwise the number of the stored text. |
| StatsApi.StoredValueServed | backend/src/Controller/StatsApiController.php:118 | A value the fetch command normalised from a finite rendering is served as that same decimal, and a value it stored as NULL is served as null. |
| StatsApi.PresentAll | backend/src/Controller/StatsApiController.php:106-120 | Each row is presented in place, in order. |
| StatsApi.Metric | backend/src/Controller/StatsApiController.php:54-127 | 404 with `Metric not found: <metric>` exactly when the sanitised table is absent. A 500 exactly when the table exists and the database rejects a bound. Otherwise a series whose `count` equals the length of `data` and of the selected rows, at most the limit, each row presented in order. |
| StatsApi.Newest | backend/src/Controller/StatsApiController.php:140 | The chosen row belongs to the table, and no row is captured later. |
| StatsApi.LatestOf | backend/src/Controller/StatsApiController.php:129-163 | 404 exactly when the sanitised table is absent; otherwise 200 with `data` null exactly for an empty table, else some newest row presented. |
| StatsApi.CatalogQuery | backend/src/Controller/StatsApiController.php:21-36 | The catalogue query returns, in ascending order, exactly the tables matching the platform's `LIKE` pattern. |
| StatsApi.StripPrefix | backend/src/Controller/StatsApiController.php:38-45 | Exactly the names starting with `cs_` contribute their suffix, and sorted input gives sorted output. |
| StatsApi.List | backend/src/Controller/StatsApiController.php:16-51 | `count` equals the number of metrics; the metrics are in ascending order; a metric is listed exactly when `cs_` plus it is a table; each listed metric sanitises back to its table. |
| StatsApi.ListedRoundTrip | backend/src/Controller/StatsApiController.php:38-59 | A listed metric is never answered with 404 by `metric` or `latest`. |
| StatsApi.LatestEndsSeries | backend/src/Controller/StatsApiController.php:140-145 | An unbounded series with a limit covering the whole table ends at the timestamp `latest` reports. |
| Lifecycle.FetchedKeysAreServed | backend/src/Controller/StatsApiController.php:56-59 | After a committed cycle every non-empty key of the document is served by `metric` and `latest` without a 404. |
| Lifecycle.FetchedKeyIsLatest | backend/src/Controller/StatsApiController.php:140-162 | On PostgreSQL, after a committed cycle `latest` serves the cycle's row for the last key of each table, when nothing newer was stored before. |
| Lifecycle.LatestIsOnlyNewest | backend/src/Controller/StatsApiController.php:140-141 | `ORDER BY captured_at DESC LIMIT 1` returns a row when it is the only one nothing is newer than. |
| Lifecycle.MySqlSetupTableKeepsDuplicates | backend/src/Command/SetupCantonscanSchemaCommand.php:91-99 | On MySQL, setup followed by two cycles at the same timestamp leaves two identical rows at that timestamp. |
| Lifecycle.MySqlSetupThenFetch | backend/src/Command/FetchCantonscanStatsCommand.php:83-91 | On MySQL the first cycle after setup inserts the pair's one row into the bare table. |
| Lifecycle.SetupMakesBareTable | backend/src/Command/SetupCantonscanSchemaCommand.php:91-99 | Setup for one pair adds that pair's table, empty and without a unique key, and keeps the store well formed. |
| Lifecycle.PostgresSetupTableUpdates | backend/src/Command/FetchCantonscanStatsCommand.php:150-156 | On PostgreSQL, the same sequence leaves one row, because the cycle adds the unique key itself. |

## Left out

- The HTTP request, its timeout and `toArray`. The response is an input: a failure, a non-array, or the decoded document's key/value pairs in order.
- `Fetched` is wider than PHP: `toArray` already throws on a body that is not an array, so the `NotAnArray` case models a guard that cannot fire, and a `Document` may repeat a key, which a decoded PHP array cannot. Both only add inputs, and every contract holds for them too.
- Console output: the progress lines, the `printHints` text, and the printed count. The count is in the report.
- SQL text and the engine dialects. Only their effect on the store is modelled: create-if-absent, the unique key, upsert, filtering, ordering, limit and the catalogue `LIKE`.
- The non-unique `captured_at` index: it has no effect on contents, and only counts as a statement that may fail.
- FetchCommand.Execute: does not model MySQL's implicit commit. On MySQL every `CREATE TABLE IF NOT EXISTS` commits the open transaction, even when the table exists, and the session is then back in autocommit. So after a failure the tables created and the rows upserted before it persist; the model rolls them back as PostgreSQL does. On a fault-free MySQL cycle with at least one ingested key, `commit()` then finds no active transaction and throws, and the `rollBack()` in the catch block throws again. The command ends in an uncaught exception with every write persisted, where the model reports `Success`. The model treats the cycle as one transaction on both engines.
- FetchCommand.IngestSucceedsWithoutFault: identifier length limits are not modelled. PostgreSQL truncates identifiers to 63 bytes. Once a table name has 62 bytes or more, `{table}_captured_at_idx` and `{table}_ts_unique` truncate to the same name (or to the table's own), the unique index is skipped, and every `ON CONFLICT (captured_at)` upsert fails. MySQL rejects identifiers over 64 characters, so `{table}_captured_at_idx` fails once the table name is longer than 48. For such keys the DDL or the upsert throws, and the model's promise of a committed cycle does not hold.
- FetchCommand.Execute: for the same over-long table names the real cycle fails at the DDL or the upsert; the model's names have no length bound.
- SetupCommand.Execute: for a table name long enough that an index name overflows the engine's identifier limit, the real key's DDL fails and is not counted; the model's names have no length bound.
- FetchCommand.PrepareTable: PostgreSQL keeps tables and indexes in one name space per schema, and the store holds tables only. When a table already holds the name `{table}_ts_unique` (keys `a_ts_unique` and then `a`), `CREATE UNIQUE INDEX IF NOT EXISTS` skips with a notice, so the table gets no unique key and the upsert's `ON CONFLICT (captured_at)` fails. When an index holds the table's own name (keys `a` and then `a_ts_unique`), `CREATE TABLE IF NOT EXISTS` skips and the `CREATE INDEX` on it fails. The model promises the table and its key. Such a collision is represented by a fault on the statement that fails.
- FetchCommand.Execute: with those PostgreSQL name collisions the real cycle fails and rolls back, where the model with no faults reports `Success`. The outcome is represented by faulting the failing statement of the colliding key.
- SetupCommand.EnsureTable: on PostgreSQL, when an index already holds the table's name (keys `a` and then `a_captured_at_idx`), `CREATE TABLE IF NOT EXISTS` skips with a notice and the following `CREATE INDEX` throws. So no table exists and the key is not counted. The model knows no index names, and with no faults it creates the table and counts the key. The outcome is represented by a fault on the key's statement 0.
- SetupCommand.EnsureAllTables: the reached tables can include a name that a PostgreSQL index holds, for which the real command creates no table. This is represented by a fault on that key's statement 0, as for SetupCommand.EnsureTable.
- SetupCommand.EnsureAllKeys: the same PostgreSQL name collision. The real table set lacks such a name, and the model matches it only when that key's statement 0 is faulted.
- SetupCommand.Execute: the same PostgreSQL name collision. The real command neither creates nor counts such a key, and the model matches it only when that key's statement 0 is faulted.
- Numeric.ToNumericString: `number_format((float)…, 18)` is a parameter, because it is floating-point rendering. Only the trimming that follows is modelled. The parameter says only whether the float was finite: the exact non-digit text PHP prints for an infinite float is part of the parameter, not fixed by the model.
- StatsApi.PresentValue: the `(float)` cast of the stored decimal is kept as the decimal text, because it is a floating-point conversion.
- Timestamps are integers. PHP's clock, the UTC text of `now`, the `DateTimeImmutable` parser, the ATOM formatter and the database's timestamp cast are opaque parameters, and time zones are left out with them.
- MySQL's lenient comparison of `DATETIME` with arbitrary text lives inside the opaque cast of `from` and `to`.
- Collation.SortNames: uses code-point order. `ORDER BY` on the catalogue uses the catalogue column's own collation, not the `utf8mb4_unicode_ci` the `cs_*` tables declare for their columns. Code-point order is what PostgreSQL gives (`pg_tables.tablename` is a `name`, collated "C"). It is also what MySQL 8 gives with `lower_case_table_names` 0, the Linux default, where `information_schema.tables.table_name` is `utf8mb3_bin`. The order differs on MariaDB, whose catalogue collation `utf8mb3_general_ci` compares characters upper-cased, so `_` sorts after the letters (`cs_ab` before `cs_a_b`). It also differs under MySQL 8's `utf8mb3_tolower_ci` (`lower_case_table_names` 1 or 2) for names with capital letters. Those collations are left out.
- StatsApi.IntCast: models leading whitespace, a sign and a run of digits. PHP's exponent forms (`"1e3"`) and saturation at the 64-bit bounds are left out, because the clamp to [1, 50000] hides the difference for the plain forms.
- StatsApi.SelectSeries: ties in `captured_at` may come back in any order in SQL; the model fixes one order, because only the timestamps are promised.
- StatsApi.LatestOf: with several newest rows the database may return any one of them, so the contract says "some newest row".
- Database errors other than the modelled ones (MySQL `DECIMAL(36,18)` range errors, a non-numeric text bound to the numeric `value` column, lost connections) are represented only by the fault set.
- Database.Upsert: stores any text as the value, because the store's values are strings and column types are not modelled. The real `value` column is `NUMERIC` on PostgreSQL and `DECIMAL(36,18)` on MySQL. MySQL in its default strict mode, and PostgreSQL 13 and older, reject the non-digit text of an infinite float, so the upsert throws and the cycle fails. That rejection is represented by a fault on that key's upsert statement. PostgreSQL 14 and later accept the text as numeric `Infinity`, which the API's `(float)` cast would serve as 0, whereas the model serves the stored text.
- StatsApi.CatalogQuery: on MySQL the catalogue `LIKE 'cs\_%'` is matched without regard to case, as MariaDB's catalogue collation `utf8mb3_general_ci` does. On MySQL 8 with `lower_case_table_names` 0, the column is `utf8mb3_bin` and the match is case-sensitive, so a table such as `CS_x` is not returned there. No table the commands create is affected, and neither is `StatsApi.List`, which keeps only names starting with a lower-case `cs_`.
- Concurrent runs of the commands are left out, because the model is sequential.
- The React frontend, its Vite configuration, the generated route cache `backend/var/cache/dev/url_matching_routes.php` and the development script `frontend/scripts/translate-frontend.js` are not part of this model.

=== FILE: collation.dfy ===
/**
 * The order `ORDER BY table_name` lists tables in: lexicographic order on character codes (the
 * "C" collation of PostgreSQL's catalog names, and MySQL 8's `utf8mb3_bin` catalog collation), and
 * sorting a set of names into it.
 */
module Collation {

  /** `a` sorts no later than `b`. */
  predicate Below(a: string, b: string) {
    a == [] || (b != [] && (a[0] < b[0] || (a[0] == b[0] && Below(a[1..], b[1..]))))
  }

  /** `a` sorts strictly before `b`. */
  predicate Less(a: string, b: string) {
    Below(a, b) && a != b
  }

  predicate StrictlySorted(xs: seq<string>) {
    forall i, j :: 0 <= i < j < |xs| ==> Less(xs[i], xs[j])
  }

  lemma {:induction false} BelowTotal(a: string, b: string)
    ensures Below(a, b) || Below(b, a)
  {
    if a != [] && b != [] && a[0] == b[0] {
      BelowTotal(a[1..], b[1..]);
    }
  }

  lemma {:induction false} BelowAntisymmetric(a: string, b: string)
    requires Below(a, b) && Below(b, a)
    ensures a == b
  {
    if a != [] {
      BelowAntisymmetric(a[1..], b[1..]);
      assert a == [a[0]] + a[1..] && b == [b[0]] + b[1..];
    }
  }

  lemma {:induction false} BelowTransitive(a: string, b: string, c: string)
    requires Below(a, b) && Below(b, c)
    ensures Below(a, c)
  {
    if a != [] && a[0] == b[0] && b[0] == c[0] {
      BelowTransitive(a[1..], b[1..], c[1..]);
    }
  }

  /** Two distinct names are ordered one way or the other. */
  lemma LessTotal(a: string, b: string)
    requires a != b
    ensures Less(a, b) || Less(b, a)
  {
    BelowTotal(a, b);
  }

  lemma LessTransitive(a: string, b: string, c: string)
    requires Less(a, b) && Less(b, c)
    ensures Less(a, c)
  {
    BelowTransitive(a, b, c);
    if a == c {
      BelowAntisymmetric(a, b);
    }
  }

  /** A shared prefix does not change how two names compare. */
  lemma {:induction false} BelowSharedPrefix(p: string, a: string, b: string)
    ensures Below(p + a, p + b) <==> Below(a, b)
  {
    if p != [] {
      assert (p + a)[1..] == p[1..] + a;
      assert (p + b)[1..] == p[1..] + b;
      BelowSharedPrefix(p[1..], a, b);
    } else {
      assert p + a == a && p + b == b;
    }
  }

  /** Inserts `x` into a strictly sorted sequence at its place. */
  function InsertSorted(xs: seq<string>, x: string): (r: seq<string>)
    requires StrictlySorted(xs) && x !in xs
    ensures StrictlySorted(r)
    ensures |r| == |xs| + 1
    ensures forall y :: y in r <==> y in xs || y == x
  {
    if xs == [] then [x]
    else if Less(x, xs[0]) then
      assert forall j :: 0 <= j < |xs| ==> Less(x, xs[j]) by {
        forall j | 0 < j < |xs| ensures Less(x, xs[j]) {
          LessTransitive(x, xs[0], xs[j]);
        }
      }
      [x] + xs
    else
      LessTotal(x, xs[0]);
      var rest := InsertSorted(xs[1..], x);
      assert forall y :: y in rest ==> Less(xs[0], y);
      [xs[0]] + rest
  }

  /** Sorts a finite set of names, as the database does for `ORDER BY`. */
  method SortNames(names: set<string>) returns (r: seq<string>)
    ensures StrictlySorted(r)
    ensures forall n :: n in r <==> n in names
    ensures |r| == |names|
  {
    r := [];
    var rest := names;
    while rest != {}
      invariant StrictlySorted(r)
      invariant forall n :: n in names <==> n in r || n in rest
      invariant forall n :: n in r ==> n !in rest
      invariant |r| + |rest| == |names|
      decreases |rest|
    {
      var n :| n in rest;
      r := InsertSorted(r, n);
      rest := rest - {n};
    }
  }
}

=== FILE: database.dfy ===
/**
 * The relational database the commands write and the controller reads, as a value.
 *
 * Each metric table has an auto-increment id, `captured_at` and a nullable decimal `value`. The
 * model keeps a table's rows in id order (insertion order) and records whether the table carries
 * a unique key on `captured_at`: with it, the upsert overwrites the row at the run's timestamp;
 * without it (a MySQL table created by the setup command), the upsert degenerates to a plain
 * insert. Only tables of the application's own schema are modelled.
 */
module Database {
  import opened Wrappers
  import TableNames

  type Timestamp = int

  /** One sample; `None` is SQL NULL. */
  datatype Row = Row(capturedAt: Timestamp, value: Option<string>)

  datatype Table = Table(uniqueTs: bool, rows: seq<Row>)

  /** Table name to table. */
  type Store = map<string, Table>

  /** The two database engines the commands and the controller branch on. */
  datatype Platform = Postgres | MySql

  /** The `ordinal`-th statement issued for the `entry`-th key of the fetched document. */
  datatype StatementId = StatementId(entry: nat, ordinal: nat)

  /**
   * Why a statement threw: an environmental failure of the statement itself, or an attempt to
   * add a unique key on `captured_at` to a table that already holds two rows at one timestamp.
   */
  datatype DbError = StatementFailed(entry: nat) | UniqueViolation(table: string)

  predicate DistinctTimestamps(rows: seq<Row>) {
    forall i, j :: 0 <= i < j < |rows| ==> rows[i].capturedAt != rows[j].capturedAt
  }

  /** A unique key on `captured_at` is honoured by the rows. */
  predicate TableWellFormed(t: Table) {
    t.uniqueTs ==> DistinctTimestamps(t.rows)
  }

  /** Every table is named by the sanitiser and honours its unique key. */
  predicate WellFormed(s: Store) {
    forall n :: n in s ==> TableNames.IsTableName(n) && TableWellFormed(s[n])
  }

  /** The rows captured at `ts`, in id order. */
  function RowsAt(rows: seq<Row>, ts: Timestamp): (r: seq<Row>)
    ensures |r| <= |rows|
    ensures forall i :: 0 <= i < |r| ==> r[i].capturedAt == ts
  {
    if rows == [] then []
    else (if rows[0].capturedAt == ts then [rows[0]] else []) + RowsAt(rows[1..], ts)
  }

  /** The rows captured at any other time, in id order. */
  function RowsNotAt(rows: seq<Row>, ts: Timestamp): (r: seq<Row>)
    ensures |r| <= |rows|
    ensures forall i :: 0 <= i < |r| ==> r[i].capturedAt != ts
  {
    if rows == [] then []
    else (if rows[0].capturedAt != ts then [rows[0]] else []) + RowsNotAt(rows[1..], ts)
  }

  lemma {:induction false} RowsAtConcat(a: seq<Row>, b: seq<Row>, ts: Timestamp)
    ensures RowsAt(a + b, ts) == RowsAt(a, ts) + RowsAt(b, ts)
  {
    if a == [] {
      assert a + b == b;
    } else {
      assert (a + b)[1..] == a[1..] + b;
      RowsAtConcat(a[1..], b, ts);
    }
  }

  lemma {:induction false} RowsNotAtConcat(a: seq<Row>, b: seq<Row>, ts: Timestamp)
    ensures RowsNotAt(a + b, ts) == RowsNotAt(a, ts) + RowsNotAt(b, ts)
  {
    if a == [] {
      assert a + b == b;
    } else {
      assert (a + b)[1..] == a[1..] + b;
      RowsNotAtConcat(a[1..], b, ts);
    }
  }

  /** No row at `ts` means no row of the table was captured at `ts`. */
  lemma {:induction false} NoRowsAt(rows: seq<Row>, ts: Timestamp)
    requires RowsAt(rows, ts) == []
    ensures forall i :: 0 <= i < |rows| ==> rows[i].capturedAt != ts
  {
    if rows != [] {
      NoRowsAt(rows[1..], ts);
      forall i | 0 < i < |rows| ensures rows[i].capturedAt != ts {
        assert rows[i] == rows[1..][i - 1];
      }
    }
  }

  /** Under distinct timestamps at most one row sits at any timestamp. */
  lemma {:induction false} DistinctAtMostOne(rows: seq<Row>, ts: Timestamp)
    requires DistinctTimestamps(rows)
    ensures |RowsAt(rows, ts)| <= 1
  {
    if rows != [] {
      DistinctAtMostOne(rows[1..], ts);
      if rows[0].capturedAt == ts {
        forall i | 0 <= i < |rows[1..]| ensures rows[1..][i].capturedAt != ts {
          assert rows[1..][i] == rows[i + 1];
        }
        if RowsAt(rows[1..], ts) != [] {
          var x := RowsAt(rows[1..], ts)[0];
          assert x in RowsAt(rows[1..], ts);
          RowsAtMembers(rows[1..], ts);
        }
      }
    }
  }

  lemma {:induction false} RowsAtMembers(rows: seq<Row>, ts: Timestamp)
    ensures forall x :: x in RowsAt(rows, ts) ==> x in rows
  {
    if rows != [] {
      RowsAtMembers(rows[1..], ts);
    }
  }

  /** The two filters split a table's rows: each row lands in the one its timestamp selects. */
  lemma {:induction false} RowsPartition(rows: seq<Row>, ts: Timestamp)
    ensures forall x :: x in rows && x.capturedAt == ts ==> x in RowsAt(rows, ts)
    ensures forall x :: x in rows && x.capturedAt != ts ==> x in RowsNotAt(rows, ts)
    ensures forall x :: x in RowsNotAt(rows, ts) ==> x in rows
  {
    if rows != [] {
      RowsPartition(rows[1..], ts);
      assert forall x :: x in rows ==> x == rows[0] || x in rows[1..];
    }
  }

  /** A table with no row away from `ts` holds rows at `ts` only. */
  lemma {:induction false} AllAt(rows: seq<Row>, ts: Timestamp)
    requires RowsNotAt(rows, ts) == []
    ensures RowsAt(rows, ts) == rows
  {
    if rows != [] {
      AllAt(rows[1..], ts);
      assert rows == [rows[0]] + rows[1..];
    }
  }

  /** Every row at `ts` takes the value `v`; all other rows stay as they are. */
  function Overwrite(rows: seq<Row>, ts: Timestamp, v: Option<string>): (r: seq<Row>)
    ensures |r| == |rows|
    ensures forall i :: 0 <= i < |rows| ==> r[i].capturedAt == rows[i].capturedAt
    ensures forall i :: 0 <= i < |rows| && rows[i].capturedAt != ts ==> r[i] == rows[i]
    ensures forall i :: 0 <= i < |rows| && rows[i].capturedAt == ts ==> r[i] == Row(ts, v)
  {
    if rows == [] then []
    else [if rows[0].capturedAt == ts then Row(ts, v) else rows[0]] + Overwrite(rows[1..], ts, v)
  }

  lemma {:induction false} OverwriteFilters(rows: seq<Row>, ts: Timestamp, v: Option<string>)
    ensures RowsNotAt(Overwrite(rows, ts, v), ts) == RowsNotAt(rows, ts)
    ensures |RowsAt(Overwrite(rows, ts, v), ts)| == |RowsAt(rows, ts)|
    ensures forall x :: x in RowsAt(Overwrite(rows, ts, v), ts) ==> x == Row(ts, v)
  {
    if rows != [] {
      var r := Overwrite(rows, ts, v);
      assert r[1..] == Overwrite(rows[1..], ts, v);
      OverwriteFilters(rows[1..], ts, v);
    }
  }

  /** Appending a row at a timestamp the table does not hold keeps the timestamps distinct. */
  lemma AppendFreshKeepsDistinct(rows: seq<Row>, row: Row)
    requires DistinctTimestamps(rows)
    requires RowsAt(rows, row.capturedAt) == []
    ensures DistinctTimestamps(rows + [row])
  {
    NoRowsAt(rows, row.capturedAt);
  }

  /** `CREATE TABLE IF NOT EXISTS`: afterwards the table exists; an existing table is left exactly as it was. */
  function CreateTableIfNotExists(s: Store, name: string, uniqueTs: bool): (s': Store)
    ensures s'.Keys == s.Keys + {name}
    ensures forall n :: n in s ==> s'[n] == s[n]
    ensures name !in s ==> s'[name] == Table(uniqueTs, [])
  {
    if name in s then s else s[name := Table(uniqueTs, [])]
  }

  /**
   * `CREATE UNIQUE INDEX IF NOT EXISTS ... (captured_at)`: succeeds when the key exists already or
   * the rows have distinct timestamps, and then only the key changes.
   */
  function CreateUniqueIndexIfNotExists(s: Store, name: string): (r: Result<Store, DbError>)
    requires name in s
    ensures r.Ok? <==> s[name].uniqueTs || DistinctTimestamps(s[name].rows)
    ensures r.Ok? ==> r.value.Keys == s.Keys && r.value[name] == Table(true, s[name].rows)
    ensures r.Ok? ==> forall n :: n in s && n != name ==> r.value[n] == s[n]
    ensures r.Err? ==> r.error == UniqueViolation(name)
  {
    var t := s[name];
    if t.uniqueTs then Ok(s)
    else if DistinctTimestamps(t.rows) then Ok(s[name := t.(uniqueTs := true)])
    else Err(UniqueViolation(name))
  }

  /**
   * `INSERT ... ON CONFLICT (captured_at) DO UPDATE` / `ON DUPLICATE KEY UPDATE`: with a unique key
   * on `captured_at` the table ends with exactly one row at `ts`, holding `v`; without one the row
   * is appended. Rows at other timestamps are untouched either way.
   */
  function Upsert(t: Table, ts: Timestamp, v: Option<string>): (t': Table)
    ensures t'.uniqueTs == t.uniqueTs
    ensures RowsNotAt(t'.rows, ts) == RowsNotAt(t.rows, ts)
    ensures TableWellFormed(t) && t.uniqueTs ==> RowsAt(t'.rows, ts) == [Row(ts, v)]
    ensures TableWellFormed(t) ==> TableWellFormed(t')
    ensures !t.uniqueTs ==> t'.rows == t.rows + [Row(ts, v)]
  {
    if t.uniqueTs && RowsAt(t.rows, ts) != [] then
      OverwriteLaws(t.rows, ts, v);
      t.(rows := Overwrite(t.rows, ts, v))
    else
      AppendLaws(t.rows, ts, v);
      t.(rows := t.rows + [Row(ts, v)])
  }

  /** Overwriting the rows at `ts` of a table that holds some: the facts the upsert relies on. */
  lemma OverwriteLaws(rows: seq<Row>, ts: Timestamp, v: Option<string>)
    requires RowsAt(rows, ts) != []
    ensures RowsNotAt(Overwrite(rows, ts, v), ts) == RowsNotAt(rows, ts)
    ensures DistinctTimestamps(rows) ==>
      RowsAt(Overwrite(rows, ts, v), ts) == [Row(ts, v)] && DistinctTimestamps(Overwrite(rows, ts, v))
  {
    var r := Overwrite(rows, ts, v);
    OverwriteFilters(rows, ts, v);
    if DistinctTimestamps(rows) {
      DistinctAtMostOne(rows, ts);
      var at := RowsAt(r, ts);
      assert |at| == 1 && at[0] in at;
    }
  }

  /** Appending one row at `ts`: the facts the upsert relies on. */
  lemma AppendLaws(rows: seq<Row>, ts: Timestamp, v: Option<string>)
    ensures RowsNotAt(rows + [Row(ts, v)], ts) == RowsNotAt(rows, ts)
    ensures RowsAt(rows + [Row(ts, v)], ts) == RowsAt(rows, ts) + [Row(ts, v)]
    ensures DistinctTimestamps(rows) && RowsAt(rows, ts) == [] ==> DistinctTimestamps(rows + [Row(ts, v)])
  {
    RowsAtConcat(rows, [Row(ts, v)], ts);
    RowsNotAtConcat(rows, [Row(ts, v)], ts);
    assert RowsNotAt([Row(ts, v)], ts) == [];
    if DistinctTimestamps(rows) && RowsAt(rows, ts) == [] {
      AppendFreshKeepsDistinct(rows, Row(ts, v));
    }
  }

  /** Every table holds at most one row per timestamp, whether or not it carries the key. */
  predicate AllDistinct(s: Store) {
    forall n :: n in s ==> DistinctTimestamps(s[n].rows)
  }

  /**
   * From `s` to `s'` nothing was written except rows captured at `ts`: every table keeps its rows
   * at other timestamps, and a table that is new holds rows at `ts` only.
   */
  predicate OnlyWritesAt(s: Store, s': Store, ts: Timestamp) {
    forall n :: n in s' ==> RowsNotAt(s'[n].rows, ts) == (if n in s then RowsNotAt(s[n].rows, ts) else [])
  }

  /** Replacing one table by a well-formed one under a sanitised name keeps the store well formed. */
  lemma WellFormedUpdate(s: Store, t: string, tbl: Table)
    requires WellFormed(s) && TableNames.IsTableName(t) && TableWellFormed(tbl)
    ensures WellFormed(s[t := tbl])
  {
  }

  /** Writing only at `ts` twice in a row writes only at `ts`. */
  lemma OnlyWritesAtTrans(s: Store, s1: Store, s2: Store, ts: Timestamp)
    requires s.Keys <= s1.Keys
    requires OnlyWritesAt(s, s1, ts) && OnlyWritesAt(s1, s2, ts)
    ensures OnlyWritesAt(s, s2, ts)
  {
  }
}

=== FILE: fetch_command.dfy ===
/**
 * `app:fetch-cantonscan-stats`: one ingest cycle. The fetched document's pairs are walked in
 * order; each key is sanitised into a table name (a key that sanitises to the bare prefix is
 * skipped), the table and its indexes are created if absent, the value is normalised, and one row
 * is upserted at the cycle's single timestamp. All of it runs in one transaction: the first
 * statement that throws rolls everything back and the command fails.
 */
module FetchCommand {
  import opened Wrappers
  import opened Upstream
  import opened Database
  import TableNames
  import Numeric

  /** The command's exit status; on success it also prints the number of upserted rows. */
  datatype Report = Failure | Success(upserted: nat)

  /**
   * What the cycle depends on besides the store: the engine, the timestamp taken once before the
   * transaction, the statements the environment makes throw, and the float rendering.
   */
  datatype Env = Env(platform: Platform, now: Timestamp, faults: set<StatementId>, fmt: Numeric.Formatter)

  /**
   * Statements issued per ingested key: on PostgreSQL the table, its plain index, the unique index
   * and the upsert; on MySQL the table (with its unique key) and the upsert.
   */
  function StatementsPerKey(p: Platform): nat {
    if p == Postgres then 4 else 2
  }

  /** One of the statements issued for the `i`-th key throws. */
  predicate Faulted(env: Env, i: nat) {
    exists f :: f in env.faults && f.entry == i && f.ordinal < StatementsPerKey(env.platform)
  }

  /** Indices of the pairs the cycle ingests: those whose key is not skipped. */
  function Ingested(es: seq<Entry>): set<nat> {
    set i: nat | i < |es| && !TableNames.Skipped(es[i].key)
  }

  /** The tables the cycle writes to. */
  function IngestedTables(es: seq<Entry>): set<string> {
    set i: nat | i < |es| && !TableNames.Skipped(es[i].key) :: TableNames.TableName(es[i].key)
  }

  /** `es[i]` is the last pair of the document whose key maps to its table. */
  predicate LastForTable(es: seq<Entry>, i: nat)
    requires i < |es|
  {
    forall j :: i < j < |es| ==> TableNames.TableName(es[j].key) != TableNames.TableName(es[i].key)
  }

  /**
   * The DDL for table `t`: `CREATE TABLE IF NOT EXISTS` (with its unique key on MySQL) and, on
   * PostgreSQL, `CREATE UNIQUE INDEX IF NOT EXISTS`. Afterwards `t` exists with its old rows;
   * PostgreSQL has given it the unique key, MySQL has left an existing table's key as it was.
   */
  function PrepareTable(p: Platform, s: Store, t: string): (r: Result<Store, DbError>)
    ensures r.Ok? <==> p == MySql || t !in s || s[t].uniqueTs || DistinctTimestamps(s[t].rows)
    ensures r.Ok? ==>
      && r.value.Keys == s.Keys + {t}
      && (forall n :: n in s && n != t ==> r.value[n] == s[n])
      && r.value[t].rows == (if t in s then s[t].rows else [])
      && r.value[t].uniqueTs == (p == Postgres || t !in s || s[t].uniqueTs)
  {
    var created := CreateTableIfNotExists(s, t, p == MySql);
    if p == Postgres then CreateUniqueIndexIfNotExists(created, t) else Ok(created)
  }

  /** Upserting into table `t` of `s` writes only at `ts`. */
  lemma UpsertOnlyAt(s: Store, t: string, ts: Timestamp, v: Option<string>)
    requires t in s
    ensures OnlyWritesAt(s, s[t := Upsert(s[t], ts, v)], ts)
  {
  }

  /**
   * The statements for the `i`-th pair, whose key is not skipped: they fail when one of them
   * throws, and otherwise succeed unless PostgreSQL cannot build the unique index.
   */
  function IngestKey(env: Env, i: nat, s: Store, e: Entry): (r: Result<Store, DbError>)
    requires !TableNames.Skipped(e.key)
    ensures Faulted(env, i) ==> r.Err?
    ensures !Faulted(env, i) && (env.platform == MySql || AllDistinct(s)) ==> r.Ok?
  {
    if Faulted(env, i) then Err(StatementFailed(i))
    else
      var t := TableNames.TableName(e.key);
      match PrepareTable(env.platform, s, t)
      case Err(err) => Err(err)
      case Ok(s1) => Ok(s1[t := Upsert(s1[t], env.now, Numeric.ToNumericString(e.value, env.fmt))])
  }

  /** The value row the `i`-th pair contributes. */
  function RowFor(env: Env, e: Entry): Row {
    Row(env.now, Numeric.ToNumericString(e.value, env.fmt))
  }

  /** After the statements for one pair its table exists and no other table changes. */
  lemma IngestKeyFrame(env: Env, i: nat, s: Store, e: Entry)
    requires !TableNames.Skipped(e.key)
    requires IngestKey(env, i, s, e).Ok?
    ensures
      var t := TableNames.TableName(e.key);
      var s' := IngestKey(env, i, s, e).value;
      && s'.Keys == s.Keys + {t}
      && (forall n :: n in s && n != t ==> s'[n] == s[n])
  {
  }

  /** PostgreSQL leaves the pair's table with a unique key; MySQL keeps the key an existing table had. */
  lemma IngestKeyUniqueKey(env: Env, i: nat, s: Store, e: Entry)
    requires !TableNames.Skipped(e.key)
    requires IngestKey(env, i, s, e).Ok?
    ensures
      var t := TableNames.TableName(e.key);
      var s' := IngestKey(env, i, s, e).value;
      && t in s'
      && (env.platform == Postgres ==> s'[t].uniqueTs)
      && (env.platform == MySql ==> s'[t].uniqueTs == (t !in s || s[t].uniqueTs))
  {
  }

  /** The statements for one pair write nothing at another timestamp. */
  lemma IngestKeyOnlyAtNow(env: Env, i: nat, s: Store, e: Entry)
    requires !TableNames.Skipped(e.key)
    requires IngestKey(env, i, s, e).Ok?
    ensures OnlyWritesAt(s, IngestKey(env, i, s, e).value, env.now)
  {
    var t := TableNames.TableName(e.key);
    var s1 := PrepareTable(env.platform, s, t).value;
    var s' := IngestKey(env, i, s, e).value;
    assert s' == s1[t := Upsert(s1[t], env.now, Numeric.ToNumericString(e.value, env.fmt))];
    UpsertOnlyAt(s1, t, env.now, Numeric.ToNumericString(e.value, env.fmt));
    assert OnlyWritesAt(s, s1, env.now) by {
      forall n | n in s1
        ensures RowsNotAt(s1[n].rows, env.now) == (if n in s then RowsNotAt(s[n].rows, env.now) else [])
      {
        if n == t && t !in s {
          assert s1[n].rows == [];
        }
      }
    }
    OnlyWritesAtTrans(s, s1, s', env.now);
  }

  /**
   * The row the pair writes: with a unique key the table's only row at the cycle's timestamp,
   * without one an appended row.
   */
  lemma IngestKeyRow(env: Env, i: nat, s: Store, e: Entry)
    requires !TableNames.Skipped(e.key)
    requires IngestKey(env, i, s, e).Ok?
    ensures
      var t := TableNames.TableName(e.key);
      var s' := IngestKey(env, i, s, e).value;
      && t in s'
      && (WellFormed(s) && s'[t].uniqueTs ==> RowsAt(s'[t].rows, env.now) == [RowFor(env, e)])
      && (!s'[t].uniqueTs ==> t in s && s'[t].rows == s[t].rows + [RowFor(env, e)])
  {
    var t := TableNames.TableName(e.key);
    var s1 := PrepareTable(env.platform, s, t).value;
    if WellFormed(s) && t in s {
      assert TableWellFormed(s[t]);
    }
  }

  /** The statements for one pair keep the store well formed, and on PostgreSQL keep every table's timestamps distinct. */
  lemma IngestKeyWellFormed(env: Env, i: nat, s: Store, e: Entry)
    requires !TableNames.Skipped(e.key)
    requires IngestKey(env, i, s, e).Ok?
    ensures var s' := IngestKey(env, i, s, e).value;
      && (WellFormed(s) ==> WellFormed(s'))
      && (env.platform == Postgres && AllDistinct(s) ==> AllDistinct(s'))
  {
    var t := TableNames.TableName(e.key);
    var s1 := PrepareTable(env.platform, s, t).value;
    var tbl := Upsert(s1[t], env.now, Numeric.ToNumericString(e.value, env.fmt));
    assert IngestKey(env, i, s, e).value == s1[t := tbl];
    if WellFormed(s) {
      assert WellFormed(s1) by {
        TableNames.TableNameShape(e.key);
        if t in s {
          assert TableWellFormed(s[t]);
        }
        assert TableWellFormed(s1[t]);
      }
      WellFormedUpdate(s1, t, tbl);
    }
    if env.platform == Postgres && AllDistinct(s) {
      assert TableWellFormed(tbl) && tbl.uniqueTs by {
        assert TableWellFormed(s1[t]);
      }
    }
  }

  /** The transaction body: the pairs in document order, stopping at the first statement that throws. */
  function Ingest(env: Env, s: Store, es: seq<Entry>): Result<(Store, nat), DbError>
    decreases |es|
  {
    if es == [] then Ok((s, 0))
    else
      var i := |es| - 1;
      match Ingest(env, s, es[..i])
      case Err(err) => Err(err)
      case Ok((s1, n)) =>
        if TableNames.Skipped(es[i].key) then Ok((s1, n))
        else
          match IngestKey(env, i, s1, es[i])
          case Err(err) => Err(err)
          case Ok(s2) => Ok((s2, n + 1))
  }

  /**
   * `execute`: a failed request or a response that is not an array fails before any write; a
   * failed transaction is rolled back, so a failure always leaves the store as it was. A committed
   * cycle reports one upsert per ingested pair, creates exactly their tables, and writes only at
   * the cycle's timestamp.
   */
  function Execute(fetched: Fetched, env: Env, s: Store): (r: (Report, Store))
    ensures !fetched.Document? ==> r == (Failure, s)
    ensures r.0.Failure? ==> r.1 == s
    ensures fetched.Document? && (exists i :: i in Ingested(fetched.entries) && Faulted(env, i)) ==> r == (Failure, s)
    ensures fetched.Document? && (forall i :: i in Ingested(fetched.entries) ==> !Faulted(env, i))
              && (env.platform == MySql || AllDistinct(s))
            ==> r.0.Success?
    ensures r.0.Success? ==>
      && fetched.Document?
      && r.0.upserted == |Ingested(fetched.entries)|
      && r.1.Keys == s.Keys + IngestedTables(fetched.entries)
      && OnlyWritesAt(s, r.1, env.now)
      && (WellFormed(s) ==> WellFormed(r.1))
  {
    match fetched
    case RequestFailed => (Failure, s)
    case NotAnArray => (Failure, s)
    case Document(es) =>
      CommitCases(env, s, es);
      match Ingest(env, s, es)
      case Err(_) => (Failure, s)
      case Ok((s', n)) =>
        IngestCount(env, s, es);
        IngestTables(env, s, es);
        IngestOnlyAtNow(env, s, es);
        if WellFormed(s) then
          IngestWellFormed(env, s, es);
          (Success(n), s')
        else (Success(n), s')
  }

  /** The transaction rolls back when an ingested pair's statement throws and commits when none does. */
  lemma CommitCases(env: Env, s: Store, es: seq<Entry>)
    ensures (exists i :: i in Ingested(es) && Faulted(env, i)) ==> Ingest(env, s, es).Err?
    ensures (forall i :: i in Ingested(es) ==> !Faulted(env, i)) && (env.platform == MySql || AllDistinct(s))
      ==> Ingest(env, s, es).Ok?
  {
    if exists i :: i in Ingested(es) && Faulted(env, i) {
      var i :| i in Ingested(es) && Faulted(env, i);
      IngestFailsOnFault(env, s, es, i);
    }
    if (forall i :: i in Ingested(es) ==> !Faulted(env, i)) && (env.platform == MySql || AllDistinct(s)) {
      IngestSucceedsWithoutFault(env, s, es);
    }
  }

  lemma IngestedSplit(es: seq<Entry>)
    requires es != []
    ensures var i := |es| - 1;
      Ingested(es) == Ingested(es[..i]) + (if TableNames.Skipped(es[i].key) then {} else {i})
  {
    var i := |es| - 1;
    var p := es[..i];
    var rhs := Ingested(p) + (if TableNames.Skipped(es[i].key) then {} else {i});
    forall j: nat | j in Ingested(es) ensures j in rhs {
      if j < i { assert p[j] == es[j]; }
    }
    forall j: nat | j in rhs ensures j in Ingested(es) {
      if j < i { assert p[j] == es[j]; }
    }
  }

  lemma IngestedTablesSplit(es: seq<Entry>)
    requires es != []
    ensures var i := |es| - 1;
      IngestedTables(es) == IngestedTables(es[..i])
        + (if TableNames.Skipped(es[i].key) then {} else {TableNames.TableName(es[i].key)})
  {
    var i := |es| - 1;
    var p := es[..i];
    var rhs := IngestedTables(p) + (if TableNames.Skipped(es[i].key) then {} else {TableNames.TableName(es[i].key)});
    forall t | t in IngestedTables(es) ensures t in rhs {
      var j: nat :| j < |es| && !TableNames.Skipped(es[j].key) && t == TableNames.TableName(es[j].key);
      if j < i {
        assert p[j] == es[j];
        assert TableNames.TableName(p[j].key) in IngestedTables(p);
      } else {
        assert j == i && !TableNames.Skipped(es[i].key);
      }
    }
    forall t | t in rhs ensures t in IngestedTables(es) {
      if t in IngestedTables(p) {
        var j: nat :| j < |p| && !TableNames.Skipped(p[j].key) && t == TableNames.TableName(p[j].key);
        assert p[j] == es[j];
        assert TableNames.TableName(es[j].key) in IngestedTables(es);
      } else {
        assert TableNames.TableName(es[i].key) in IngestedTables(es);
      }
    }
  }

  /** A committed cycle reports one upsert per ingested pair, colliding pairs counted separately. */
  lemma {:induction false} IngestCount(env: Env, s: Store, es: seq<Entry>)
    requires Ingest(env, s, es).Ok?
    ensures Ingest(env, s, es).value.1 == |Ingested(es)|
    decreases |es|
  {
    if es == [] {
      assert Ingested(es) == {};
    } else {
      var i := |es| - 1;
      IngestedSplit(es);
      IngestCount(env, s, es[..i]);
      assert i !in Ingested(es[..i]);
    }
  }

  /** A committed cycle creates exactly the tables of its ingested pairs and drops none. */
  lemma {:induction false} IngestTables(env: Env, s: Store, es: seq<Entry>)
    requires Ingest(env, s, es).Ok?
    ensures Ingest(env, s, es).value.0.Keys == s.Keys + IngestedTables(es)
    decreases |es|
  {
    if es == [] {
      assert IngestedTables(es) == {};
    } else {
      var i := |es| - 1;
      var s1 := Ingest(env, s, es[..i]).value.0;
      var s2 := Ingest(env, s, es).value.0;
      var r1, r2 := IngestedTables(es[..i]), IngestedTables(es);
      IngestTables(env, s, es[..i]);
      if TableNames.Skipped(es[i].key) {
        assert r2 == r1 by {
          IngestedTablesSplit(es);
        }
        assert s2 == s1;
      } else {
        var t := TableNames.TableName(es[i].key);
        assert r2 == r1 + {t} by {
          IngestedTablesSplit(es);
        }
        assert s2 == IngestKey(env, i, s1, es[i]).value;
        IngestKeyFrame(env, i, s1, es[i]);
      }
    }
  }

  /** On PostgreSQL every table a committed cycle wrote to ends with the unique key on `captured_at`. */
  lemma {:induction false} IngestUniqueOnPostgres(env: Env, s: Store, es: seq<Entry>)
    requires env.platform == Postgres
    requires Ingest(env, s, es).Ok?
    ensures var s' := Ingest(env, s, es).value.0;
      forall t :: t in IngestedTables(es) ==> t in s' && s'[t].uniqueTs
    decreases |es|
  {
    if es == [] {
      assert IngestedTables(es) == {};
    } else {
      var i := |es| - 1;
      var s1 := Ingest(env, s, es[..i]).value.0;
      IngestedTablesSplit(es);
      IngestUniqueOnPostgres(env, s, es[..i]);
      if !TableNames.Skipped(es[i].key) {
        IngestKeyFrame(env, i, s1, es[i]);
        IngestKeyUniqueKey(env, i, s1, es[i]);
        IngestTables(env, s, es[..i]);
      }
    }
  }

  /** Every row a committed cycle writes carries the cycle's timestamp; rows at other timestamps stay. */
  lemma {:induction false} IngestOnlyAtNow(env: Env, s: Store, es: seq<Entry>)
    requires Ingest(env, s, es).Ok?
    ensures OnlyWritesAt(s, Ingest(env, s, es).value.0, env.now)
    decreases |es|
  {
    if es != [] {
      var i := |es| - 1;
      IngestOnlyAtNow(env, s, es[..i]);
      IngestTables(env, s, es[..i]);
      var s1 := Ingest(env, s, es[..i]).value.0;
      if !TableNames.Skipped(es[i].key) {
        IngestKeyOnlyAtNow(env, i, s1, es[i]);
        OnlyWritesAtTrans(s, s1, Ingest(env, s, es).value.0, env.now);
      }
    }
  }

  /** A committed cycle keeps the store well formed. */
  lemma {:induction false} IngestWellFormed(env: Env, s: Store, es: seq<Entry>)
    requires WellFormed(s)
    requires Ingest(env, s, es).Ok?
    ensures WellFormed(Ingest(env, s, es).value.0)
    decreases |es|
  {
    if es != [] {
      var i := |es| - 1;
      IngestWellFormed(env, s, es[..i]);
      if !TableNames.Skipped(es[i].key) {
        IngestKeyWellFormed(env, i, Ingest(env, s, es[..i]).value.0, es[i]);
      }
    }
  }

  /** A statement that throws for an ingested pair makes the whole transaction fail. */
  lemma {:induction false} IngestFailsOnFault(env: Env, s: Store, es: seq<Entry>, i: nat)
    requires i in Ingested(es) && Faulted(env, i)
    ensures Ingest(env, s, es).Err?
    decreases |es|
  {
    var last := |es| - 1;
    IngestedSplit(es);
    if i < last {
      IngestFailsOnFault(env, s, es[..last], i);
    }
  }

  /**
   * Without a throwing statement the transaction commits, provided the PostgreSQL unique index can
   * be built on every table it reaches (MySQL creates its unique key with the table).
   */
  lemma {:induction false} IngestSucceedsWithoutFault(env: Env, s: Store, es: seq<Entry>)
    requires forall i :: i in Ingested(es) ==> !Faulted(env, i)
    requires env.platform == MySql || AllDistinct(s)
    ensures Ingest(env, s, es).Ok?
    ensures env.platform == Postgres ==> AllDistinct(Ingest(env, s, es).value.0)
    decreases |es|
  {
    if es != [] {
      var last := |es| - 1;
      IngestedSplit(es);
      IngestSucceedsWithoutFault(env, s, es[..last]);
      if !TableNames.Skipped(es[last].key) {
        var s1 := Ingest(env, s, es[..last]).value.0;
        assert !Faulted(env, last);
        IngestKeyWellFormed(env, last, s1, es[last]);
      }
    }
  }

  /**
   * The last pair of the document that maps to a table with a unique key decides the table's only
   * row at the cycle's timestamp: earlier colliding pairs are overwritten.
   */
  lemma {:induction false} IngestLastWins(env: Env, s: Store, es: seq<Entry>, i: nat)
    requires WellFormed(s)
    requires Ingest(env, s, es).Ok?
    requires i < |es| && !TableNames.Skipped(es[i].key) && LastForTable(es, i)
    ensures var t := TableNames.TableName(es[i].key);
      var s' := Ingest(env, s, es).value.0;
      && t in s'
      && (s'[t].uniqueTs ==> RowsAt(s'[t].rows, env.now) == [RowFor(env, es[i])])
    decreases |es|
  {
    var last := |es| - 1;
    var t := TableNames.TableName(es[i].key);
    if i == last {
      IngestLastPairRow(env, s, es);
    } else {
      assert es[..last][i] == es[i];
      assert LastForTable(es[..last], i) by {
        forall j | i < j < |es[..last]|
          ensures TableNames.TableName(es[..last][j].key) != TableNames.TableName(es[..last][i].key)
        {
          assert es[..last][j] == es[j];
        }
      }
      IngestLastWins(env, s, es[..last], i);
      IngestLastPairFrame(env, s, es, t);
    }
  }

  /** The last pair of a committed body leaves its row as the table's only row at the timestamp, given the unique key. */
  lemma IngestLastPairRow(env: Env, s: Store, es: seq<Entry>)
    requires WellFormed(s)
    requires Ingest(env, s, es).Ok?
    requires es != [] && !TableNames.Skipped(es[|es| - 1].key)
    ensures var t := TableNames.TableName(es[|es| - 1].key);
      var s' := Ingest(env, s, es).value.0;
      && t in s'
      && (s'[t].uniqueTs ==> RowsAt(s'[t].rows, env.now) == [RowFor(env, es[|es| - 1])])
  {
    var last := |es| - 1;
    var s1 := Ingest(env, s, es[..last]).value.0;
    assert Ingest(env, s, es).value.0 == IngestKey(env, last, s1, es[last]).value;
    IngestWellFormed(env, s, es[..last]);
    IngestKeyRow(env, last, s1, es[last]);
  }

  /** The last pair of a committed body leaves every table but its own as the earlier pairs left it. */
  lemma IngestLastPairFrame(env: Env, s: Store, es: seq<Entry>, t: string)
    requires Ingest(env, s, es).Ok?
    requires es != [] && t in Ingest(env, s, es[..|es| - 1]).value.0
    requires TableNames.Skipped(es[|es| - 1].key) || TableNames.TableName(es[|es| - 1].key) != t
    ensures var s1 := Ingest(env, s, es[..|es| - 1]).value.0;
      var s' := Ingest(env, s, es).value.0;
      t in s' && s'[t] == s1[t]
  {
    var last := |es| - 1;
    var s1 := Ingest(env, s, es[..last]).value.0;
    if !TableNames.Skipped(es[last].key) {
      assert Ingest(env, s, es).value.0 == IngestKey(env, last, s1, es[last]).value;
      IngestKeyFrame(env, last, s1, es[last]);
    }
  }
}

=== FILE: lifecycle.dfy ===
/**
 * How the commands and the read API meet: a key the fetch command ingested is served by the API
 * under the same name, because both sides sanitise it into the same table.
 */
module Lifecycle {
  import opened Wrappers
  import opened Upstream
  import opened Database
  import TableNames
  import FetchCommand
  import SetupCommand
  import StatsApi

  /**
   * After a committed cycle, every non-empty key of the fetched document can be queried through
   * `metric` and `latest`: neither answers 404.
   */
  lemma FetchedKeysAreServed(fetched: Fetched, env: FetchCommand.Env, s: Store, i: nat,
                             q: StatsApi.Query, tt: StatsApi.TimeText)
    requires FetchCommand.Execute(fetched, env, s).0.Success?
    requires fetched.Document? && i < |fetched.entries| && fetched.entries[i].key != []
    ensures var s' := FetchCommand.Execute(fetched, env, s).1;
      var key := fetched.entries[i].key;
      && TableNames.TableName(key) in s'
      && !StatsApi.Metric(s', key, q, tt).NotFound?
      && StatsApi.LatestOf(s', key, tt).Latest?
  {
    var es := fetched.entries;
    var key := es[i].key;
    TableNames.TableNameShape(key);
    TableNames.SanitiserCopiesAgree(key);
    assert TableNames.TableName(es[i].key) in FetchCommand.IngestedTables(es);
  }

  /**
   * On PostgreSQL, a committed cycle's row is what `latest` then serves for a key, when the key
   * was the document's last pair for its table and the table held nothing captured after the
   * cycle's timestamp: the unique key leaves one row at that timestamp and every other row is older.
   */
  lemma FetchedKeyIsLatest(fetched: Fetched, env: FetchCommand.Env, s: Store, i: nat, tt: StatsApi.TimeText)
    requires WellFormed(s)
    requires env.platform == Postgres
    requires FetchCommand.Execute(fetched, env, s).0.Success?
    requires fetched.Document? && i < |fetched.entries| && fetched.entries[i].key != []
    requires FetchCommand.LastForTable(fetched.entries, i)
    requires var t := TableNames.TableName(fetched.entries[i].key);
      t in s ==> forall x :: x in s[t].rows ==> x.capturedAt <= env.now
    ensures var s' := FetchCommand.Execute(fetched, env, s).1;
      var r := StatsApi.LatestOf(s', fetched.entries[i].key, tt);
      && r.Latest? && r.point.Some?
      && r.point.value == StatsApi.PresentRow(FetchCommand.RowFor(env, fetched.entries[i]), tt)
  {
    var es := fetched.entries;
    var key := es[i].key;
    var t := TableNames.TableName(key);
    var s' := FetchCommand.Ingest(env, s, es).value.0;
    var row := FetchCommand.RowFor(env, es[i]);
    assert FetchCommand.Execute(fetched, env, s).1 == s';
    assert !TableNames.Skipped(key) && TableNames.MetricToTable(key) == t by {
      TableNames.TableNameShape(key);
      TableNames.SanitiserCopiesAgree(key);
    }
    assert t in s' && RowsAt(s'[t].rows, env.now) == [row] by {
      assert t in FetchCommand.IngestedTables(es);
      FetchCommand.IngestUniqueOnPostgres(env, s, es);
      FetchCommand.IngestLastWins(env, s, es, i);
    }
    assert forall x :: x in s'[t].rows ==> x.capturedAt <= env.now by {
      FetchCommand.IngestOnlyAtNow(env, s, es);
      NothingLaterKept(s, s', env.now, t);
    }
    OnlyRowAtNewest(s'[t].rows, env.now, row);
    LatestIsOnlyNewest(s', key, tt, row);
  }

  /** `latest` serves a table's row when that row is the only one no other row is newer than. */
  lemma LatestIsOnlyNewest(s: Store, metric: string, tt: StatsApi.TimeText, row: Row)
    requires TableNames.MetricToTable(metric) in s
    requires var rows := s[TableNames.MetricToTable(metric)].rows;
      && row in rows
      && forall x :: x in rows && (forall y :: y in rows ==> y.capturedAt <= x.capturedAt) ==> x == row
    ensures var r := StatsApi.LatestOf(s, metric, tt);
      r.Latest? && r.point == Some(StatsApi.PresentRow(row, tt))
  {
    var rows := s[TableNames.MetricToTable(metric)].rows;
    var r := StatsApi.LatestOf(s, metric, tt);
    assert r.point.Some?;
    var x :| x in rows && r.point.value == StatsApi.PresentRow(x, tt)
      && forall y :: y in rows ==> y.capturedAt <= x.capturedAt;
    assert x == row;
  }

  /** Writing only at `ts` into a table that held nothing later than `ts` leaves nothing later than `ts`. */
  lemma NothingLaterKept(s: Store, s': Store, ts: Timestamp, t: string)
    requires OnlyWritesAt(s, s', ts) && t in s'
    requires t in s ==> forall x :: x in s[t].rows ==> x.capturedAt <= ts
    ensures forall x :: x in s'[t].rows ==> x.capturedAt <= ts
  {
    RowsPartition(s'[t].rows, ts);
    if t in s {
      RowsPartition(s[t].rows, ts);
    }
  }

  /**
   * When no row is later than `ts` and `row` is the only row at `ts`, `row` is the table's one
   * newest row.
   */
  lemma OnlyRowAtNewest(rows: seq<Row>, ts: Timestamp, row: Row)
    requires RowsAt(rows, ts) == [row]
    requires forall x :: x in rows ==> x.capturedAt <= ts
    ensures row in rows
    ensures forall x :: x in rows && (forall y :: y in rows ==> y.capturedAt <= x.capturedAt) ==> x == row
  {
    RowsAtMembers(rows, ts);
    assert row in RowsAt(rows, ts);
    RowsPartition(rows, ts);
  }

  /** The store after `app:setup-cantonscan-schema` and then one cycle, both for one pair. */
  function SetupThenFetch(e: Entry, env: FetchCommand.Env, s: Store): Store {
    var doc := Document([e]);
    FetchCommand.Execute(doc, env, SetupCommand.Execute(doc, env.platform, {}, s).1).1
  }

  /** The store after `app:setup-cantonscan-schema` and then two cycles at the same timestamp, all for one pair. */
  function SetupThenFetchTwice(e: Entry, env: FetchCommand.Env, s: Store): Store {
    FetchCommand.Execute(Document([e]), env, SetupThenFetch(e, env, s)).1
  }

  /**
   * On MySQL a table made by `app:setup-cantonscan-schema` has no unique key on `captured_at`, so a
   * cycle repeated at the same timestamp appends a second row instead of updating the first.
   */
  lemma MySqlSetupTableKeepsDuplicates(e: Entry, env: FetchCommand.Env, s: Store)
    requires env.platform == MySql && env.faults == {}
    requires e.key != [] && TableNames.TableName(e.key) !in s
    ensures var s3 := SetupThenFetchTwice(e, env, s);
      var t := TableNames.TableName(e.key);
      var row := FetchCommand.RowFor(env, e);
      t in s3 && s3[t] == Table(false, [row] + [row])
  {
    var t := TableNames.TableName(e.key);
    var row := FetchCommand.RowFor(env, e);
    var s2 := SetupThenFetch(e, env, s);
    MySqlSetupThenFetch(e, env, s);
    OneCycleStep(e, env, s2, [row]);
  }

  /** The first cycle after setup on MySQL writes one row into the bare table. */
  lemma MySqlSetupThenFetch(e: Entry, env: FetchCommand.Env, s: Store)
    requires env.platform == MySql && env.faults == {}
    requires e.key != [] && TableNames.TableName(e.key) !in s
    ensures var s2 := SetupThenFetch(e, env, s);
      var t := TableNames.TableName(e.key);
      t in s2 && s2[t] == Table(false, [FetchCommand.RowFor(env, e)])
  {
    var row := FetchCommand.RowFor(env, e);
    SetupMakesBareTable(e, MySql, s);
    OneCycleStep(e, env, SetupCommand.Execute(Document([e]), MySql, {}, s).1, []);
    assert [] + [row] == [row];
  }

  /** Setup for a one-pair document adds the pair's table, empty and without a unique key. */
  lemma SetupMakesBareTable(e: Entry, p: Platform, s: Store)
    requires e.key != [] && TableNames.TableName(e.key) !in s
    ensures var s1 := SetupCommand.Execute(Document([e]), p, {}, s).1;
      var t := TableNames.TableName(e.key);
      && t in s1 && s1[t] == Table(false, [])
      && (WellFormed(s) ==> WellFormed(s1))
      && (AllDistinct(s) ==> AllDistinct(s1))
  {
    var t := TableNames.TableName(e.key);
    assert !TableNames.Skipped(e.key) by {
      TableNames.TableNameShape(e.key);
    }
    assert [e][0] == e;
    assert SetupCommand.TableCreated({}, 0);
    assert TableNames.TableName([e][0].key) in SetupCommand.Reached({}, [e]);
  }

  /**
   * On PostgreSQL the cycle itself creates the unique index on a table made by
   * `app:setup-cantonscan-schema`, so the repeated cycle updates the row it wrote the first time.
   */
  lemma PostgresSetupTableUpdates(e: Entry, env: FetchCommand.Env, s: Store)
    requires WellFormed(s) && AllDistinct(s)
    requires env.platform == Postgres && env.faults == {}
    requires e.key != [] && TableNames.TableName(e.key) !in s
    ensures var s3 := SetupThenFetchTwice(e, env, s);
      var t := TableNames.TableName(e.key);
      t in s3 && s3[t] == Table(true, [FetchCommand.RowFor(env, e)])
  {
    var doc := Document([e]);
    SetupMakesBareTable(e, Postgres, s);
    var s1 := SetupCommand.Execute(doc, Postgres, {}, s).1;
    UniqueCycleStep(e, env, s1);
    var s2 := FetchCommand.Execute(doc, env, s1).1;
    UniqueCycleStep(e, env, s2);
  }

  /** One cycle for a single pair on PostgreSQL when its table holds rows at the cycle's timestamp only. */
  lemma UniqueCycleStep(e: Entry, env: FetchCommand.Env, s: Store)
    requires WellFormed(s)
    requires env.faults == {} && e.key != [] && env.platform == Postgres
    requires TableNames.TableName(e.key) in s
    requires RowsNotAt(s[TableNames.TableName(e.key)].rows, env.now) == []
    requires AllDistinct(s)
    ensures var s' := FetchCommand.Execute(Document([e]), env, s).1;
      var t := TableNames.TableName(e.key);
      && WellFormed(s') && AllDistinct(s')
      && t in s'
      && s'[t] == Table(true, [FetchCommand.RowFor(env, e)])
  {
    var t := TableNames.TableName(e.key);
    TableNames.TableNameShape(e.key);
    SingleCycle(e, env, s);
    FetchCommand.IngestKeyRow(env, 0, s, e);
    FetchCommand.IngestKeyUniqueKey(env, 0, s, e);
    FetchCommand.IngestKeyOnlyAtNow(env, 0, s, e);
    FetchCommand.IngestKeyWellFormed(env, 0, s, e);
    var rows := FetchCommand.IngestKey(env, 0, s, e).value[t].rows;
    AllAt(rows, env.now);
  }

  /** On MySQL a cycle appends its row to a table without the unique key. */
  lemma OneCycleStep(e: Entry, env: FetchCommand.Env, s: Store, rows: seq<Row>)
    requires env.faults == {} && e.key != []
    requires env.platform == MySql
    requires TableNames.TableName(e.key) in s && s[TableNames.TableName(e.key)] == Table(false, rows)
    ensures var s' := FetchCommand.Execute(Document([e]), env, s).1;
      var t := TableNames.TableName(e.key);
      && t in s'
      && s'[t] == Table(false, rows + [FetchCommand.RowFor(env, e)])
  {
    SingleCycle(e, env, s);
    FetchCommand.IngestKeyRow(env, 0, s, e);
    FetchCommand.IngestKeyUniqueKey(env, 0, s, e);
  }

  /** A cycle over a one-pair document with no faults commits exactly that pair's statements. */
  lemma SingleCycle(e: Entry, env: FetchCommand.Env, s: Store)
    requires env.faults == {} && e.key != []
    requires env.platform == MySql || AllDistinct(s)
    ensures !TableNames.Skipped(e.key)
    ensures FetchCommand.IngestKey(env, 0, s, e).Ok?
    ensures FetchCommand.Execute(Document([e]), env, s).1 == FetchCommand.IngestKey(env, 0, s, e).value
  {
    assert !TableNames.Skipped(e.key) by {
      TableNames.TableNameShape(e.key);
    }
    assert !FetchCommand.Faulted(env, 0);
    SingleIngest(env, s, e);
    SingleExecute(env, s, e);
  }

  /** The transaction body over a one-pair document is that pair's statements. */
  lemma SingleIngest(env: FetchCommand.Env, s: Store, e: Entry)
    requires !TableNames.Skipped(e.key)
    requires FetchCommand.IngestKey(env, 0, s, e).Ok?
    ensures FetchCommand.Ingest(env, s, [e]) == Ok((FetchCommand.IngestKey(env, 0, s, e).value, 1))
  {
    assert [e][..0] == [];
    assert FetchCommand.Ingest(env, s, []) == Ok((s, 0));
  }

  /** A committed body over a document is what the command leaves behind. */
  lemma SingleExecute(env: FetchCommand.Env, s: Store, e: Entry)
    requires FetchCommand.Ingest(env, s, [e]).Ok?
    ensures FetchCommand.Execute(Document([e]), env, s).1 == FetchCommand.Ingest(env, s, [e]).value.0
  {
  }
}

=== FILE: numeric.dfy ===
/**
 * `toNumericString`: the normaliser that turns a decoded JSON scalar into the decimal string
 * stored in a metric table, or into SQL NULL.
 *
 * The float conversion and `number_format(x, 18, '.', '')` are floating-point work and are not
 * modelled: a `Formatter` supplies their output. For a finite float that is a `Fixed` value, an
 * optional `-`, at least one integer digit, `.`, and exactly eighteen fraction digits; for an
 * infinite one (`1e400` decodes, or casts, to INF) `number_format` hands back its `%f` text, which
 * does not start with a digit. What is modelled is the type dispatch, the separator stripping,
 * PHP's `is_numeric` test and the trimming that follows the rendering.
 */
module Numeric {
  import opened Wrappers
  import opened Upstream

  predicate IsDigit(c: char) { '0' <= c <= '9' }
  predicate AllDigits(s: string) { forall i :: 0 <= i < |s| ==> IsDigit(s[i]) }

  /** The decimal places `number_format` is asked for. */
  const Places: nat := 18

  datatype Decimal = Decimal(negative: bool, whole: string, frac: string)

  predicate WellFormedDecimal(d: Decimal) {
    |d.whole| >= 1 && AllDigits(d.whole) && |d.frac| == Places && AllDigits(d.frac)
  }

  /** The shape of a `number_format(x, 18, '.', '')` result. */
  type Fixed = d: Decimal | WellFormedDecimal(d)
    witness Decimal(false, "0", "000000000000000000")

  /** `number_format`'s text for a `Fixed`. */
  function Render(d: Fixed): string {
    (if d.negative then "-" else "") + d.whole + "." + d.frac
  }

  /** What `number_format` returns: fixed-point digits for a finite float, its raw text otherwise. */
  datatype Rendering = Finite(digits: Fixed) | NonFinite(text: string)

  /** The text of a rendering. */
  function Text(rd: Rendering): string {
    match rd
    case Finite(d) => Render(d)
    case NonFinite(t) => t
  }

  /**
   * The floating-point part of the normaliser, left opaque: the rendering of an integer (cast to
   * float, always finite since PHP integers are 64-bit), of a float, and of a numeric string (cast
   * to float).
   */
  datatype Formatter = Formatter(ofInt: int -> Fixed, ofFloat: real -> Rendering, ofNumeric: string -> Rendering)

  /** PHP `rtrim(s, c)` for a single character `c`. */
  function TrimRight(s: string, c: char): (r: string)
    ensures |r| <= |s| && r == s[..|r|]
    ensures r == [] || r[|r| - 1] != c
  {
    if s != [] && s[|s| - 1] == c then TrimRight(s[..|s| - 1], c) else s
  }

  /** `rtrim` removes only copies of `c`. */
  lemma {:induction false} TrimRightRemovesOnly(s: string, c: char)
    ensures forall i :: |TrimRight(s, c)| <= i < |s| ==> s[i] == c
  {
    if s != [] && s[|s| - 1] == c {
      TrimRightRemovesOnly(s[..|s| - 1], c);
    }
  }

  /** `rtrim(rtrim(text, '0'), '.') ?: '0'`: the trimming applied to the rendered number. */
  function TrimNumber(text: string): (r: string)
    ensures Trimmed(r)
  {
    var t := TrimRight(TrimRight(text, '0'), '.');
    if t == "" || t == "0" then "0" else t
  }

  /** The digits of `d.frac` up to its last non-zero one. */
  function SignificantFraction(d: Fixed): (f: string)
    ensures AllDigits(f) && (f == [] || f[|f| - 1] != '0')
  {
    TrimRight(d.frac, '0')
  }

  /**
   * The canonical decimal text of `d`, defined independently of the trimming: the sign, the
   * integer digits, and the fraction only when it has a non-zero digit.
   */
  function Canonical(d: Fixed): string {
    var head := (if d.negative then "-" else "") + d.whole;
    var f := SignificantFraction(d);
    if f == [] then head else head + "." + f
  }

  /** `-?\d+(\.\d*[1-9])?`: what the normaliser stores for a number. */
  predicate IsCanonicalDecimal(s: string) {
    exists k :: 0 <= k <= |s| && CanonicalAt(s, k)
  }

  /** What the trimming leaves of any text: something, not ending in a point. */
  predicate Trimmed(s: string) {
    s != [] && s[|s| - 1] != '.'
  }

  /**
   * The shape of a stored decimal: trimmed, no trailing zero after a point, and of the canonical
   * form.
   */
  predicate StoredDecimal(s: string) {
    && Trimmed(s)
    && ('.' in s ==> s[|s| - 1] != '0')
    && IsCanonicalDecimal(s)
  }

  /** `s[..k]` is the optional sign with the integer digits, `s[k..]` the optional fraction. */
  predicate CanonicalAt(s: string, k: int)
    requires 0 <= k <= |s|
  {
    var start := if s != [] && s[0] == '-' then 1 else 0;
    && start < k && AllDigits(s[start..k])
    && (k == |s| || (s[k] == '.' && k + 1 < |s| && AllDigits(s[k + 1..]) && s[|s| - 1] != '0'))
  }

  /** Trimming from the right across a concatenation. */
  lemma {:induction false} TrimRightConcat(a: string, b: string, c: char)
    ensures TrimRight(a + b, c) == if TrimRight(b, c) == [] then TrimRight(a, c) else a + TrimRight(b, c)
    decreases |b|
  {
    if b == [] {
      assert a + b == a;
    } else if b[|b| - 1] == c {
      assert (a + b)[..|a + b| - 1] == a + b[..|b| - 1];
      TrimRightConcat(a, b[..|b| - 1], c);
    }
  }

  /** Trimming a string that does not end in `c` leaves it unchanged. */
  lemma TrimRightNoop(s: string, c: char)
    requires s == [] || s[|s| - 1] != c
    ensures TrimRight(s, c) == s
  {
  }

  /** Trimming `s + [c]` is trimming `s`. */
  lemma TrimRightStep(s: string, c: char)
    ensures TrimRight(s + [c], c) == TrimRight(s, c)
  {
    assert (s + [c])[..|s|] == s;
  }

  /** Trailing zeros of the fraction go; the point protects the integer digits. */
  lemma TrimZerosAfterPoint(head: string, frac: string)
    ensures TrimRight(head + "." + frac, '0') == head + "." + TrimRight(frac, '0')
  {
    TrimRightConcat(head + ".", frac, '0');
    TrimRightNoop(head + ".", '0');
    if TrimRight(frac, '0') == [] {
      assert head + "." + [] == head + ".";
    }
  }

  /** Then a bare trailing point goes, and a point followed by digits stays. */
  lemma TrimPointAfterDigits(head: string, f: string)
    requires head != [] && IsDigit(head[|head| - 1])
    requires f == [] || f[|f| - 1] != '.'
    ensures TrimRight(head + "." + f, '.') == if f == [] then head else head + "." + f
  {
    if f == [] {
      assert head + "." + f == head + ".";
      TrimRightStep(head, '.');
      TrimRightNoop(head, '.');
    } else {
      TrimRightNoop(head + "." + f, '.');
    }
  }

  /** The trimming of a rendered number yields exactly its canonical text. */
  lemma TrimNumberIsCanonical(d: Fixed)
    ensures TrimNumber(Render(d)) == Canonical(d)
  {
    var head := (if d.negative then "-" else "") + d.whole;
    var f := SignificantFraction(d);
    var u := TrimRight(Render(d), '0');
    assert u == head + "." + f by {
      assert Render(d) == head + "." + d.frac;
      TrimZerosAfterPoint(head, d.frac);
    }
    var t := TrimRight(u, '.');
    var c := if f == [] then head else head + "." + f;
    assert t == c by {
      SignedWholeEndsInDigit(d);
      TrimPointAfterDigits(head, f);
    }
    assert |t| >= |head| > 0;
  }

  /** The sign and the integer digits end in a digit. */
  lemma SignedWholeEndsInDigit(d: Fixed)
    ensures var head := (if d.negative then "-" else "") + d.whole;
      head != [] && IsDigit(head[|head| - 1])
  {
    var sign := if d.negative then "-" else "";
    var k := |d.whole| - 1;
    assert (sign + d.whole)[|sign| + k] == d.whole[k];
  }

  /** An optional sign and at least one digit: canonical, without a point. */
  lemma SignedDigitsShape(sign: string, whole: string)
    requires (sign == "" || sign == "-") && |whole| >= 1 && AllDigits(whole)
    ensures var s := sign + whole;
      && s != [] && '.' !in s && CanonicalAt(s, |s|)
  {
    var s := sign + whole;
    assert s[|sign|..] == whole;
    if sign == "" {
      assert s[0] == whole[0];
    }
    forall i | 0 <= i < |s| ensures s[i] != '.' {
      if i >= |sign| { assert s[i] == whole[i - |sign|]; }
    }
  }

  /** An optional sign, digits, a point and digits ending in a non-zero one: canonical. */
  lemma SignedFractionShape(sign: string, whole: string, f: string)
    requires (sign == "" || sign == "-") && |whole| >= 1 && AllDigits(whole)
    requires f != [] && AllDigits(f) && f[|f| - 1] != '0'
    ensures var s := sign + whole + "." + f;
      && s[|s| - 1] != '.' && s[|s| - 1] != '0' && CanonicalAt(s, |sign| + |whole|)
  {
    var s := sign + whole + "." + f;
    var k := |sign| + |whole|;
    assert s[..k] == sign + whole;
    assert s[k + 1..] == f;
    assert s[|s| - 1] == f[|f| - 1];
    SignedDigitsShape(sign, whole);
    if sign == "" {
      assert s[0] == whole[0];
    } else {
      assert s[0] == '-';
    }
    assert s[|sign|..k] == whole;
  }

  /** The canonical text is never empty, never ends in `.`, and ends in a non-zero digit when it has a fraction. */
  lemma CanonicalShape(d: Fixed)
    ensures StoredDecimal(Canonical(d))
  {
    var sign := if d.negative then "-" else "";
    var f := SignificantFraction(d);
    var s := Canonical(d);
    if f == [] {
      assert s == sign + d.whole;
      SignedDigitsShape(sign, d.whole);
      assert CanonicalAt(s, |s|);
    } else {
      assert s == sign + d.whole + "." + f;
      SignedFractionShape(sign, d.whole, f);
      assert CanonicalAt(s, |sign| + |d.whole|);
    }
  }

  /** PHP's whitespace for numeric strings: space, tab, newline, carriage return, vertical tab, form feed. */
  predicate IsNumericSpace(c: char) {
    c == ' ' || c == '\t' || c == '\n' || c == '\r' || c == '\U{B}' || c == '\U{C}'
  }

  /** The index just past the run of digits that starts at `i`. */
  function DigitsEnd(s: string, i: nat): (j: nat)
    requires i <= |s|
    ensures i <= j <= |s|
    ensures AllDigits(s[i..j])
    ensures j == |s| || !IsDigit(s[j])
    decreases |s| - i
  {
    if i < |s| && IsDigit(s[i]) then DigitsEnd(s, i + 1) else i
  }

  /** The index just past the run of PHP whitespace that starts at `i`. */
  function SpaceEnd(s: string, i: nat): (j: nat)
    requires i <= |s|
    ensures i <= j <= |s|
    ensures j == |s| || !IsNumericSpace(s[j])
    decreases |s| - i
  {
    if i < |s| && IsNumericSpace(s[i]) then SpaceEnd(s, i + 1) else i
  }

  /** Where an optional `+` or `-` at `i` ends. */
  function SignEnd(s: string, i: nat): (j: nat)
    requires i <= |s|
    ensures i <= j <= |s|
  {
    if i < |s| && (s[i] == '+' || s[i] == '-') then i + 1 else i
  }

  /**
   * The index just past a decimal literal `(\d+(\.\d*)?|\.\d+)([eE][+-]?\d+)?` starting at `i`,
   * or `None` when none starts there.
   */
  function LiteralEnd(s: string, i: nat): (r: Option<nat>)
    requires i <= |s|
    ensures r.Some? ==> i < r.value <= |s|
  {
    var intEnd := DigitsEnd(s, i);
    var hasPoint := intEnd < |s| && s[intEnd] == '.';
    var fracEnd := if hasPoint then DigitsEnd(s, intEnd + 1) else intEnd;
    var mantissaDigits := (intEnd - i) + (if hasPoint then fracEnd - intEnd - 1 else 0);
    if mantissaDigits == 0 then None
    else if fracEnd < |s| && (s[fracEnd] == 'e' || s[fracEnd] == 'E') then
      var expStart := SignEnd(s, fracEnd + 1);
      var expEnd := DigitsEnd(s, expStart);
      if expEnd == expStart then None else Some(expEnd)
    else Some(fracEnd)
  }

  /**
   * PHP 8 `is_numeric` on a string: optional leading whitespace, an optional sign, a decimal
   * literal, optional trailing whitespace, and nothing else.
   */
  predicate IsNumeric(s: string) {
    var start := SignEnd(s, SpaceEnd(s, 0));
    var lit := LiteralEnd(s, start);
    lit.Some? && SpaceEnd(s, lit.value) == |s|
  }

  /** A numeric string contains at least one digit. */
  lemma NumericHasDigit(s: string)
    requires IsNumeric(s)
    ensures exists i :: 0 <= i < |s| && IsDigit(s[i])
  {
    var start := SignEnd(s, SpaceEnd(s, 0));
    var intEnd := DigitsEnd(s, start);
    if intEnd > start {
      assert IsDigit(s[start..intEnd][0]);
    } else {
      var fracEnd := DigitsEnd(s, intEnd + 1);
      assert IsDigit(s[intEnd + 1..fracEnd][0]);
    }
  }

  /** A non-empty run of digits is numeric. */
  lemma DigitsAreNumeric(s: string)
    requires s != [] && AllDigits(s)
    ensures IsNumeric(s)
  {
    assert SpaceEnd(s, 0) == 0;
    assert SignEnd(s, 0) == 0;
    DigitsRunToEnd(s, 0);
  }

  lemma {:induction false} DigitsRunToEnd(s: string, i: nat)
    requires i <= |s| && AllDigits(s[i..])
    ensures DigitsEnd(s, i) == |s|
    decreases |s| - i
  {
    if i < |s| {
      assert s[i] == s[i..][0];
      assert s[i + 1..] == s[i..][1..];
      DigitsRunToEnd(s, i + 1);
    }
  }

  /** `str_replace([',', ' '], ['', ''], s)`: removes every thousands separator and space. */
  function StripSeparators(s: string): (r: string)
    ensures ',' !in r && ' ' !in r
    ensures |r| <= |s|
    ensures forall c :: c != ',' && c != ' ' ==> multiset(r)[c] == multiset(s)[c]
  {
    if s == [] then []
    else
      assert s == [s[0]] + s[1..];
      (if s[0] == ',' || s[0] == ' ' then [] else [s[0]]) + StripSeparators(s[1..])
  }

  /** Removing separators distributes over concatenation, so it keeps the order of what it keeps. */
  lemma {:induction false} StripSeparatorsConcat(a: string, b: string)
    ensures StripSeparators(a + b) == StripSeparators(a) + StripSeparators(b)
  {
    if a != [] {
      assert (a + b)[1..] == a[1..] + b;
      StripSeparatorsConcat(a[1..], b);
    } else {
      assert a + b == b;
    }
  }

  /** The rendering of `v` is finite: always for an integer, and for a float or numeric string when it is. */
  predicate RendersFinite(v: JsonValue, fmt: Formatter) {
    match v
    case JFloat(x) => fmt.ofFloat(x).Finite?
    case JString(s) => !IsNumeric(StripSeparators(s)) || fmt.ofNumeric(StripSeparators(s)).Finite?
    case _ => true
  }

  /**
   * `toNumericString`: integers and floats are rendered and trimmed; a string is rendered and
   * trimmed when it is numeric once separators are gone; everything else is `None` (SQL NULL).
   * A finite rendering always becomes a canonical decimal; a non-finite one keeps its trimmed text.
   */
  function ToNumericString(v: JsonValue, fmt: Formatter): (r: Option<string>)
    ensures r.None? <==>
      (!v.JInt? && !v.JFloat? && !v.JString?) || (v.JString? && !IsNumeric(StripSeparators(v.s)))
    ensures r.Some? ==> Trimmed(r.value)
    ensures r.Some? && RendersFinite(v, fmt) ==> StoredDecimal(r.value)
    ensures v.JInt? ==> r == Some(Canonical(fmt.ofInt(v.i)))
    ensures v.JFloat? && fmt.ofFloat(v.x).Finite? ==> r == Some(Canonical(fmt.ofFloat(v.x).digits))
    ensures v.JFloat? && fmt.ofFloat(v.x).NonFinite? ==> r == Some(TrimNumber(fmt.ofFloat(v.x).text))
    ensures v.JString? && IsNumeric(StripSeparators(v.s)) ==>
      var rd := fmt.ofNumeric(StripSeparators(v.s));
      && (rd.Finite? ==> r == Some(Canonical(rd.digits)))
      && (rd.NonFinite? ==> r == Some(TrimNumber(rd.text)))
  {
    match v
    case JInt(i) => Some(Normalised(Finite(fmt.ofInt(i))))
    case JFloat(x) => Some(Normalised(fmt.ofFloat(x)))
    case JString(s) =>
      var clean := StripSeparators(s);
      if IsNumeric(clean) then
        var rd := fmt.ofNumeric(clean);
        assert RendersFinite(v, fmt) ==> rd.Finite?;
        Some(Normalised(rd))
      else None
    case _ => None
  }

  /**
   * The rendering after trimming: the canonical text of finite digits, and the trimmed raw text
   * otherwise.
   */
  function Normalised(rd: Rendering): (s: string)
    ensures Trimmed(s)
    ensures rd.NonFinite? ==> s == TrimNumber(rd.text)
    ensures rd.Finite? ==> s == Canonical(rd.digits) && StoredDecimal(s)
  {
    if rd.Finite? then
      TrimNumberIsCanonical(rd.digits);
      CanonicalShape(rd.digits);
      TrimNumber(Text(rd))
    else TrimNumber(Text(rd))
  }
}

=== FILE: setup_command.dfy ===
/**
 * `app:setup-cantonscan-schema`: creates one table per key of the fetched document. There is no
 * transaction: each DDL statement takes effect on its own, a key whose statements throw is
 * reported and not counted, and the loop goes on with the next key. The tables it creates carry
 * no unique key on `captured_at` on either engine.
 */
module SetupCommand {
  import opened Upstream
  import opened Database
  import TableNames

  /** The command's exit status; on success it also prints the number of tables ensured. */
  datatype Report = Failure | Success(created: nat)

  /** DDL statements per key: PostgreSQL creates the table and then its plain index; MySQL does both at once. */
  function DdlPerKey(p: Platform): nat {
    if p == Postgres then 2 else 1
  }

  /** One of the DDL statements for the `i`-th key throws. */
  predicate KeyFailed(p: Platform, faults: set<StatementId>, i: nat) {
    exists f :: f in faults && f.entry == i && f.ordinal < DdlPerKey(p)
  }

  /** The `CREATE TABLE` for the `i`-th key took effect (a later index statement may still have thrown). */
  predicate TableCreated(faults: set<StatementId>, i: nat) {
    StatementId(i, 0) !in faults
  }

  /** Indices of the keys whose DDL fully succeeded: the ones the command counts. */
  function Counted(p: Platform, faults: set<StatementId>, es: seq<Entry>): set<nat> {
    set i: nat | i < |es| && !TableNames.Skipped(es[i].key) && !KeyFailed(p, faults, i)
  }

  /** The tables whose `CREATE TABLE` statement ran. */
  function Reached(faults: set<StatementId>, es: seq<Entry>): set<string> {
    set i: nat | i < |es| && !TableNames.Skipped(es[i].key) && TableCreated(faults, i) :: TableNames.TableName(es[i].key)
  }

  /**
   * The DDL for the `i`-th key, whose table is `t`, inside its own try block: the store after the
   * statements that ran, and whether all of them succeeded. An existing table is never changed; a
   * new one is empty and has no unique key.
   */
  function EnsureTable(p: Platform, faults: set<StatementId>, i: nat, s: Store, t: string): (r: (Store, bool))
    ensures r.1 <==> !KeyFailed(p, faults, i)
    ensures r.0.Keys == s.Keys + (if TableCreated(faults, i) then {t} else {})
    ensures forall n :: n in s ==> r.0[n] == s[n]
    ensures t !in s && TableCreated(faults, i) ==> r.0[t] == Table(false, [])
  {
    if !TableCreated(faults, i) then
      assert KeyFailed(p, faults, i) by {
        assert StatementId(i, 0) in faults;
      }
      (s, false)
    else (CreateTableIfNotExists(s, t, false), !KeyFailed(p, faults, i))
  }

  /** The loop over the document's pairs: the store afterwards and the `created` counter. */
  function EnsureAll(p: Platform, faults: set<StatementId>, s: Store, es: seq<Entry>): (Store, nat)
    decreases |es|
  {
    if es == [] then (s, 0)
    else
      var i := |es| - 1;
      var (s1, n) := EnsureAll(p, faults, s, es[..i]);
      if TableNames.Skipped(es[i].key) then (s1, n)
      else
        var (s2, ok) := EnsureTable(p, faults, i, s1, TableNames.TableName(es[i].key));
        (s2, if ok then n + 1 else n)
  }

  /**
   * `execute`: a failed request or a response that is not an array fails without touching the
   * database; otherwise the command succeeds however many keys failed, having counted the keys
   * whose DDL fully succeeded and created the tables whose `CREATE TABLE` ran.
   */
  function Execute(fetched: Fetched, p: Platform, faults: set<StatementId>, s: Store): (r: (Report, Store))
    ensures r.0.Failure? <==> !fetched.Document?
    ensures r.0.Failure? ==> r.1 == s
    ensures r.0.Success? ==>
      && r.0.created == |Counted(p, faults, fetched.entries)|
      && r.0.created <= |fetched.entries|
      && r.1.Keys == s.Keys + Reached(faults, fetched.entries)
      && (forall n :: n in s ==> r.1[n] == s[n])
      && (forall n :: n in r.1 && n !in s ==> r.1[n] == Table(false, []))
      && (WellFormed(s) ==> WellFormed(r.1))
  {
    match fetched
    case RequestFailed => (Failure, s)
    case NotAnArray => (Failure, s)
    case Document(es) =>
      var (s', n) := EnsureAll(p, faults, s, es);
      EnsureAllCount(p, faults, s, es);
      EnsureAllTables(p, faults, s, es);
      CountedBound(p, faults, es);
      if WellFormed(s) then
        EnsureAllWellFormed(p, faults, s, es);
        (Success(n), s')
      else (Success(n), s')
  }

  lemma CountedSplit(p: Platform, faults: set<StatementId>, es: seq<Entry>)
    requires es != []
    ensures var i := |es| - 1;
      Counted(p, faults, es) == Counted(p, faults, es[..i])
        + (if !TableNames.Skipped(es[i].key) && !KeyFailed(p, faults, i) then {i} else {})
  {
    var i := |es| - 1;
    var q := es[..i];
    var last := if !TableNames.Skipped(es[i].key) && !KeyFailed(p, faults, i) then {i} else {};
    forall j: nat | j in Counted(p, faults, es) ensures j in Counted(p, faults, q) + last {
      if j < i {
        assert q[j] == es[j];
        assert j in Counted(p, faults, q);
      } else {
        assert j == i && j in last;
      }
    }
    forall j: nat | j in Counted(p, faults, q) ensures j in Counted(p, faults, es) {
      assert q[j] == es[j];
    }
    forall j: nat | j in last ensures j in Counted(p, faults, es) {
      assert j == i;
    }
  }

  lemma ReachedSplit(faults: set<StatementId>, es: seq<Entry>)
    requires es != []
    ensures var i := |es| - 1;
      Reached(faults, es) == Reached(faults, es[..i])
        + (if !TableNames.Skipped(es[i].key) && TableCreated(faults, i) then {TableNames.TableName(es[i].key)} else {})
  {
    var i := |es| - 1;
    var q := es[..i];
    var last := if !TableNames.Skipped(es[i].key) && TableCreated(faults, i) then {TableNames.TableName(es[i].key)} else {};
    forall t | t in Reached(faults, es) ensures t in Reached(faults, q) + last {
      var j: nat :| j < |es| && !TableNames.Skipped(es[j].key) && TableCreated(faults, j) && t == TableNames.TableName(es[j].key);
      if j < i {
        assert q[j] == es[j];
        assert t in Reached(faults, q);
      } else {
        assert j == i && t in last;
      }
    }
    forall t | t in Reached(faults, q) ensures t in Reached(faults, es) {
      var j: nat :| j < |q| && !TableNames.Skipped(q[j].key) && TableCreated(faults, j) && t == TableNames.TableName(q[j].key);
      assert q[j] == es[j];
    }
    forall t | t in last ensures t in Reached(faults, es) {
      assert t == TableNames.TableName(es[i].key);
    }
  }

  /** The counter equals the number of keys whose DDL fully succeeded. */
  lemma {:induction false} EnsureAllCount(p: Platform, faults: set<StatementId>, s: Store, es: seq<Entry>)
    ensures EnsureAll(p, faults, s, es).1 == |Counted(p, faults, es)|
    decreases |es|
  {
    if es == [] {
      assert Counted(p, faults, es) == {};
    } else {
      var i := |es| - 1;
      CountedSplit(p, faults, es);
      EnsureAllCount(p, faults, s, es[..i]);
      assert i !in Counted(p, faults, es[..i]);
    }
  }

  /** The counter never exceeds the number of keys. */
  lemma {:induction false} CountedBound(p: Platform, faults: set<StatementId>, es: seq<Entry>)
    ensures |Counted(p, faults, es)| <= |es|
    decreases |es|
  {
    if es == [] {
      assert Counted(p, faults, es) == {};
    } else {
      CountedSplit(p, faults, es);
      CountedBound(p, faults, es[..|es| - 1]);
    }
  }

  /** The loop creates exactly the tables whose `CREATE TABLE` ran, empty and without a unique key, and changes no existing table. */
  lemma {:induction false} EnsureAllTables(p: Platform, faults: set<StatementId>, s: Store, es: seq<Entry>)
    ensures var s' := EnsureAll(p, faults, s, es).0;
      && s'.Keys == s.Keys + Reached(faults, es)
      && (forall n :: n in s ==> s'[n] == s[n])
      && (forall n :: n in s' && n !in s ==> s'[n] == Table(false, []))
    decreases |es|
  {
    EnsureAllKeys(p, faults, s, es);
    if es != [] {
      var i := |es| - 1;
      EnsureAllTables(p, faults, s, es[..i]);
      if !TableNames.Skipped(es[i].key) {
        var s1 := EnsureAll(p, faults, s, es[..i]).0;
        assert EnsureAll(p, faults, s, es).0 == EnsureTable(p, faults, i, s1, TableNames.TableName(es[i].key)).0;
      }
    }
  }

  /** The tables after the loop are the ones before it and the ones whose `CREATE TABLE` ran. */
  lemma {:induction false} EnsureAllKeys(p: Platform, faults: set<StatementId>, s: Store, es: seq<Entry>)
    ensures EnsureAll(p, faults, s, es).0.Keys == s.Keys + Reached(faults, es)
    decreases |es|
  {
    if es == [] {
      assert Reached(faults, es) == {};
    } else {
      var i := |es| - 1;
      var s1 := EnsureAll(p, faults, s, es[..i]).0;
      var s2 := EnsureAll(p, faults, s, es).0;
      var r1, r2 := Reached(faults, es[..i]), Reached(faults, es);
      EnsureAllKeys(p, faults, s, es[..i]);
      if TableNames.Skipped(es[i].key) {
        assert r2 == r1 by {
          ReachedSplit(faults, es);
        }
        assert s2 == s1;
      } else {
        var t := TableNames.TableName(es[i].key);
        var added := if TableCreated(faults, i) then {t} else {};
        assert r2 == r1 + added by {
          ReachedSplit(faults, es);
        }
        assert s2 == EnsureTable(p, faults, i, s1, t).0;
      }
    }
  }

  /** The loop keeps the store well formed: its tables are named by the sanitiser and have no unique key. */
  lemma {:induction false} EnsureAllWellFormed(p: Platform, faults: set<StatementId>, s: Store, es: seq<Entry>)
    requires WellFormed(s)
    ensures WellFormed(EnsureAll(p, faults, s, es).0)
    decreases |es|
  {
    if es != [] {
      var i := |es| - 1;
      EnsureAllWellFormed(p, faults, s, es[..i]);
      if !TableNames.Skipped(es[i].key) {
        var s1 := EnsureAll(p, faults, s, es[..i]).0;
        var t := TableNames.TableName(es[i].key);
        TableNames.TableNameShape(es[i].key);
        if t !in s1 && TableCreated(faults, i) {
          WellFormedUpdate(s1, t, Table(false, []));
          assert EnsureTable(p, faults, i, s1, t).0 == s1[t := Table(false, [])];
        }
      }
    }
  }

  /** When every table the document names exists already, the loop leaves the store exactly as it was. */
  lemma {:induction false} EnsureAllNoop(p: Platform, faults: set<StatementId>, s: Store, es: seq<Entry>)
    requires forall i :: 0 <= i < |es| && !TableNames.Skipped(es[i].key) ==> TableNames.TableName(es[i].key) in s
    ensures EnsureAll(p, faults, s, es).0 == s
    decreases |es|
  {
    if es != [] {
      var i := |es| - 1;
      assert forall j :: 0 <= j < i ==> es[..i][j] == es[j];
      EnsureAllNoop(p, faults, s, es[..i]);
    }
  }

  /**
   * Ensuring tables is idempotent: once a run has created every table (no `CREATE TABLE` threw),
   * a second run over the same document, whatever fails in it, leaves the store unchanged.
   */
  lemma SetupIdempotent(fetched: Fetched, p: Platform, faults1: set<StatementId>, faults2: set<StatementId>, s: Store)
    requires fetched.Document?
    requires forall i :: 0 <= i < |fetched.entries| ==> TableCreated(faults1, i)
    ensures var s1 := Execute(fetched, p, faults1, s).1;
      Execute(fetched, p, faults2, s1).1 == s1
  {
    var es := fetched.entries;
    var s1 := Execute(fetched, p, faults1, s).1;
    forall i | 0 <= i < |es| && !TableNames.Skipped(es[i].key)
      ensures TableNames.TableName(es[i].key) in s1
    {
      assert TableNames.TableName(es[i].key) in Reached(faults1, es);
    }
    EnsureAllNoop(p, faults2, s1, es);
  }
}

=== FILE: stats_api.dfy ===
/**
 * `StatsApiController`: the read-only REST endpoints over the store.
 *
 * - `GET /api/stats` lists the metric tables, prefix removed, in table-name order;
 * - `GET /api/stats/{metric}` returns a metric's samples, optionally bounded by `from` and `to`,
 *   ascending, at most `limit` of them;
 * - `GET /api/stats/{metric}/latest` returns the newest sample.
 *
 * Timestamps travel as text between the database, PHP and JSON; the conversions are left opaque
 * and passed in as a `TimeText`.
 */
module StatsApi {
  import opened Wrappers
  import opened Database
  import TableNames
  import Numeric
  import Upstream
  import Collation

  /** A JSON number: PHP's `(float)` cast of a stored decimal, left opaque. */
  datatype JsonNumber = FloatOf(decimal: string)

  /** One element of `data`: `{captured_at, value}`; `None` is JSON null. */
  datatype Point = Point(capturedAt: Option<string>, value: Option<JsonNumber>)

  /** The JSON bodies the controller answers with; `point` is the `data` field of the latest-sample body. */
  datatype Response =
    | MetricList(count: nat, metrics: seq<string>)
    | Series(metric: string, count: nat, data: seq<Point>)
    | Latest(metric: string, point: Option<Point>)
    | NotFound(error: string)
    | ServerError

  /** The HTTP status of a response; `ServerError` is the framework's answer to a query the database rejects. */
  function Status(r: Response): nat {
    match r
    case NotFound(_) => 404
    case ServerError => 500
    case _ => 200
  }

  /** The query string of the series endpoint; each parameter may be absent. */
  datatype Query = Query(from: Option<string>, to: Option<string>, limit: Option<string>)

  /**
   * The opaque timestamp conversions: the database driver's text for a stored `captured_at`,
   * PHP's `new DateTimeImmutable(text)` (which throws on text it cannot read), `format(ATOM)`, and
   * the database's cast of a `from`/`to` parameter (which fails on text it cannot read).
   */
  datatype TimeText = TimeText(
    dbText: Timestamp -> string,
    phpParse: string -> Option<Timestamp>,
    atom: Timestamp -> string,
    dbCast: string -> Option<Timestamp>)

  /** PHP truthiness of a string: only "" and "0" are false. */
  predicate Truthy(s: string) {
    s != "" && s != "0"
  }

  const DefaultLimit: int := 1000
  const MaxLimit: int := 50000

  // ---------- `limit` ----------

  /** The value of a run of decimal digits. */
  function DigitsValue(ds: string): (n: nat)
    requires Numeric.AllDigits(ds)
  {
    if ds == [] then 0
    else DigitsValue(ds[..|ds| - 1]) * 10 + (ds[|ds| - 1] as int - '0' as int)
  }

  /**
   * PHP's `(int)` cast of a query-string value: leading whitespace, an optional sign and the
   * longest run of digits that follows; a string with no such digits casts to 0.
   */
  function IntCast(s: string): (r: int)
    ensures Numeric.SpaceEnd(s, 0) == |s| ==> r == 0
  {
    var start := Numeric.SpaceEnd(s, 0);
    var digitsStart := Numeric.SignEnd(s, start);
    var digitsEnd := Numeric.DigitsEnd(s, digitsStart);
    var magnitude: int := DigitsValue(s[digitsStart..digitsEnd]);
    if digitsStart > start && s[start] == '-' then -magnitude else magnitude
  }

  /** The decimal text of a natural number, without leading zeros. */
  function DecimalText(n: nat): (s: string)
    ensures s != [] && Numeric.AllDigits(s)
  {
    if n < 10 then [('0' as int + n) as char]
    else DecimalText(n / 10) + [('0' as int + n % 10) as char]
  }

  lemma {:induction false} DecimalTextValue(n: nat)
    ensures DigitsValue(DecimalText(n)) == n
  {
    if n >= 10 {
      var s := DecimalText(n);
      assert s[..|s| - 1] == DecimalText(n / 10);
      DecimalTextValue(n / 10);
    }
  }

  /** The cast of a sign (or none) followed by a decimal text reads the text's value, negated after `-`. */
  lemma IntCastSigned(sign: string, n: nat)
    requires sign == "" || sign == "-" || sign == "+"
    ensures IntCast(sign + DecimalText(n)) == if sign == "-" then -(n as int) else n
  {
    var s := DecimalText(n);
    var t := sign + s;
    DecimalTextValue(n);
    assert Numeric.SpaceEnd(t, 0) == 0 by {
      assert t[0] == (if sign == "" then s[0] else sign[0]);
    }
    assert Numeric.SignEnd(t, 0) == |sign|;
    assert t[|sign|..] == s;
    Numeric.DigitsRunToEnd(t, |sign|);
    assert t[|sign|..|t|] == s;
  }

  /** The cast reads back any integer written in decimal, with or without a sign. */
  lemma IntCastRoundTrip(n: nat)
    ensures IntCast(DecimalText(n)) == n
    ensures IntCast("-" + DecimalText(n)) == -(n as int)
    ensures IntCast("+" + DecimalText(n)) == n
  {
    IntCastSigned("", n);
    assert "" + DecimalText(n) == DecimalText(n);
    IntCastSigned("-", n);
    IntCastSigned("+", n);
  }

  function Distance(a: int, b: int): nat {
    if a <= b then b - a else a - b
  }

  /** `max(1, min(limit, 50000))`: the allowed limit nearest the requested one. */
  function ClampLimit(v: int): (r: int)
    ensures 1 <= r <= MaxLimit
    ensures forall w :: 1 <= w <= MaxLimit ==> Distance(r, v) <= Distance(w, v)
    ensures 1 <= v <= MaxLimit ==> r == v
  {
    if v < 1 then 1 else if v > MaxLimit then MaxLimit else v
  }

  /** The number of rows the series endpoint may return: the cast parameter (1000 when absent), clamped. */
  function Limit(q: Query): (r: nat)
    ensures 1 <= r <= MaxLimit
    ensures q.limit.None? ==> r == DefaultLimit
  {
    ClampLimit(if q.limit.None? then DefaultLimit else IntCast(q.limit.value))
  }

  /** A limit written in decimal is honoured when allowed; 0 becomes 1 and anything above the cap the cap. */
  lemma LimitReadsDecimal(from: Option<string>, to: Option<string>, n: nat)
    ensures var r := Limit(Query(from, to, Some(DecimalText(n))));
      && (1 <= n <= MaxLimit ==> r == n)
      && (n == 0 ==> r == 1)
      && (n > MaxLimit ==> r == MaxLimit)
  {
    IntCastRoundTrip(n);
  }

  // ---------- `from` / `to` ----------

  /**
   * A bound parameter: ignored when absent or falsy (`if ($from)`), otherwise cast by the
   * database, whose failure to read it fails the query.
   */
  function Bound(param: Option<string>, tt: TimeText): (r: Result<Option<Timestamp>, ()>)
    ensures param.None? || !Truthy(param.value) ==> r == Ok(None)
    ensures param.Some? && Truthy(param.value) ==>
      (r.Err? <==> tt.dbCast(param.value).None?) && (r.Ok? ==> r.value == tt.dbCast(param.value))
  {
    if param.None? || !Truthy(param.value) then Ok(None)
    else match tt.dbCast(param.value)
      case None => Err(())
      case Some(t) => Ok(Some(t))
  }

  /** `captured_at >= from AND captured_at <= to`, each only when given. */
  predicate Within(r: Row, lo: Option<Timestamp>, hi: Option<Timestamp>) {
    (lo.None? || lo.value <= r.capturedAt) && (hi.None? || r.capturedAt <= hi.value)
  }

  /** The `WHERE` clause: the rows within the bounds, in id order. */
  function Where(rows: seq<Row>, lo: Option<Timestamp>, hi: Option<Timestamp>): (r: seq<Row>)
    ensures forall x :: x in r ==> Within(x, lo, hi)
    ensures forall x :: Within(x, lo, hi) ==> multiset(r)[x] == multiset(rows)[x]
    ensures multiset(r) <= multiset(rows)
  {
    if rows == [] then []
    else
      assert rows == [rows[0]] + rows[1..];
      (if Within(rows[0], lo, hi) then [rows[0]] else []) + Where(rows[1..], lo, hi)
  }

  predicate SortedByTime(rows: seq<Row>) {
    forall i, j :: 0 <= i < j < |rows| ==> rows[i].capturedAt <= rows[j].capturedAt
  }

  /** A row captured no later than every row of a sorted sequence may go in front of it. */
  lemma SortedCons(a: Row, rest: seq<Row>)
    requires SortedByTime(rest)
    requires forall y :: y in rest ==> a.capturedAt <= y.capturedAt
    ensures SortedByTime([a] + rest)
  {
    forall i, j | 0 <= i < j < |[a] + rest| ensures ([a] + rest)[i].capturedAt <= ([a] + rest)[j].capturedAt {
      if i == 0 {
        assert ([a] + rest)[j] == rest[j - 1];
      } else {
        assert ([a] + rest)[i] == rest[i - 1] && ([a] + rest)[j] == rest[j - 1];
      }
    }
  }

  /** Inserts a row before the first row captured no earlier. */
  function InsertByTime(x: Row, rows: seq<Row>): (r: seq<Row>)
    requires SortedByTime(rows)
    ensures SortedByTime(r)
    ensures forall y :: y in r ==> y == x || y in rows
    ensures multiset(r) == multiset(rows) + multiset{x}
  {
    if rows == [] then [x]
    else if x.capturedAt <= rows[0].capturedAt then
      SortedCons(x, rows);
      [x] + rows
    else
      var rest := InsertByTime(x, rows[1..]);
      assert rows == [rows[0]] + rows[1..];
      SortedCons(rows[0], rest);
      [rows[0]] + rest
  }

  /** `ORDER BY captured_at ASC`; rows captured at the same time keep their id order. */
  function SortByTime(rows: seq<Row>): (r: seq<Row>)
    ensures SortedByTime(r)
    ensures multiset(r) == multiset(rows)
  {
    if rows == [] then []
    else
      assert rows == [rows[0]] + rows[1..];
      InsertByTime(rows[0], SortByTime(rows[1..]))
  }

  function Min(a: int, b: int): int {
    if a <= b then a else b
  }

  /** The number of rows captured within the bounds. */
  function CountWithin(rows: seq<Row>, lo: Option<Timestamp>, hi: Option<Timestamp>): nat {
    |Where(rows, lo, hi)|
  }

  /** A prefix of a sorted sequence is sorted and holds part of it. */
  lemma SortedPrefix(sorted: seq<Row>, n: nat)
    requires SortedByTime(sorted) && n <= |sorted|
    ensures SortedByTime(sorted[..n])
    ensures multiset(sorted[..n]) <= multiset(sorted)
  {
    assert sorted == sorted[..n] + sorted[n..];
  }

  /**
   * A copy of `x` that a prefix of a sorted sequence leaves out lies past the prefix, so it sorts no
   * earlier than the prefix's last element.
   */
  lemma SortedPrefixRest(sorted: seq<Row>, n: nat, x: Row)
    requires SortedByTime(sorted) && n <= |sorted|
    requires multiset(sorted[..n])[x] < multiset(sorted)[x]
    ensures n < |sorted|
    ensures n > 0 ==> sorted[n - 1].capturedAt <= x.capturedAt
  {
    assert sorted == sorted[..n] + sorted[n..];
    assert multiset(sorted) == multiset(sorted[..n]) + multiset(sorted[n..]);
    assert x in multiset(sorted[n..]);
    var k :| 0 <= k < |sorted[n..]| && sorted[n..][k] == x;
    assert sorted[n + k] == x;
  }

  /** A prefix of the sorted matching rows holds matching rows of the table, sorted. */
  lemma MatchingPrefix(rows: seq<Row>, lo: Option<Timestamp>, hi: Option<Timestamp>, sorted: seq<Row>, n: nat)
    requires SortedByTime(sorted) && multiset(sorted) == multiset(Where(rows, lo, hi)) && n <= |sorted|
    ensures |sorted| == CountWithin(rows, lo, hi)
    ensures SortedByTime(sorted[..n])
    ensures multiset(sorted[..n]) <= multiset(rows)
    ensures forall x :: x in sorted[..n] ==> Within(x, lo, hi)
  {
    assert |multiset(sorted)| == |multiset(Where(rows, lo, hi))|;
    SortedPrefix(sorted, n);
    forall x | x in sorted[..n] ensures Within(x, lo, hi) {
      assert x in multiset(Where(rows, lo, hi));
    }
  }

  /**
   * A matching row that a prefix of the sorted matching rows holds fewer times than the table does
   * was cut off: the prefix is shorter than the matching rows and ends no later than that row.
   */
  lemma MatchingPrefixComplete(rows: seq<Row>, lo: Option<Timestamp>, hi: Option<Timestamp>, sorted: seq<Row>, n: nat)
    requires SortedByTime(sorted) && multiset(sorted) == multiset(Where(rows, lo, hi)) && n <= |sorted|
    ensures forall x :: Within(x, lo, hi) && multiset(sorted[..n])[x] < multiset(rows)[x] ==>
              n < |sorted| && (n > 0 ==> sorted[..n][n - 1].capturedAt <= x.capturedAt)
  {
    forall x | Within(x, lo, hi) && multiset(sorted[..n])[x] < multiset(rows)[x]
      ensures n < |sorted| && (n > 0 ==> sorted[..n][n - 1].capturedAt <= x.capturedAt)
    {
      assert multiset(sorted)[x] == multiset(rows)[x];
      SortedPrefixRest(sorted, n, x);
    }
  }

  /**
   * The series query: the rows within the bounds, ascending, the first `limit` of them. Every row
   * within the bounds is returned, as often as the table holds it, unless the limit cut a copy of
   * it off, and then it was captured no earlier than the last row returned.
   */
  function SelectSeries(rows: seq<Row>, lo: Option<Timestamp>, hi: Option<Timestamp>, limit: nat): (r: seq<Row>)
    ensures |r| == Min(limit, CountWithin(rows, lo, hi))
    ensures SortedByTime(r)
    ensures multiset(r) <= multiset(rows)
    ensures forall x :: x in r ==> Within(x, lo, hi)
    ensures forall x :: Within(x, lo, hi) && multiset(r)[x] < multiset(rows)[x] ==>
              |r| == limit && (limit > 0 ==> r[|r| - 1].capturedAt <= x.capturedAt)
  {
    var sorted := SortByTime(Where(rows, lo, hi));
    var n := Min(limit, |sorted|);
    MatchingPrefix(rows, lo, hi, sorted, n);
    MatchingPrefixComplete(rows, lo, hi, sorted, n);
    sorted[..n]
  }

  /** When the limit does not bite, the series holds every row within the bounds. */
  lemma SeriesWhole(rows: seq<Row>, lo: Option<Timestamp>, hi: Option<Timestamp>, limit: nat)
    requires limit >= CountWithin(rows, lo, hi)
    ensures multiset(SelectSeries(rows, lo, hi, limit)) == multiset(Where(rows, lo, hi))
  {
    var sorted := SortByTime(Where(rows, lo, hi));
    assert |sorted| == CountWithin(rows, lo, hi) by {
      assert |multiset(sorted)| == |multiset(Where(rows, lo, hi))|;
    }
    var n := Min(limit, |sorted|);
    assert n == |sorted|;
    assert SelectSeries(rows, lo, hi, limit) == sorted[..n];
    assert sorted[..n] == sorted;
  }

  // ---------- presentation ----------

  /**
   * The `captured_at` field: null for falsy text, the ATOM rendering when PHP can read the text,
   * and the text itself, verbatim, when it cannot.
   */
  function PresentTime(text: string, tt: TimeText): (r: Option<string>)
    ensures r.None? <==> !Truthy(text)
    ensures Truthy(text) && tt.phpParse(text).None? ==> r == Some(text)
    ensures Truthy(text) && tt.phpParse(text).Some? ==> r == Some(tt.atom(tt.phpParse(text).value))
  {
    if !Truthy(text) then None
    else match tt.phpParse(text)
      case None => Some(text)
      case Some(t) => Some(tt.atom(t))
  }

  /** The `value` field: null when the stored value is NULL or empty, a number otherwise. */
  function PresentValue(v: Option<string>): (r: Option<JsonNumber>)
    ensures r.None? <==> v.None? || v.value == ""
    ensures r.Some? ==> r.value.decimal == v.value
  {
    if v.None? || v.value == "" then None else Some(FloatOf(v.value))
  }

  function PresentRow(r: Row, tt: TimeText): Point {
    Point(PresentTime(tt.dbText(r.capturedAt), tt), PresentValue(r.value))
  }

  function PresentAll(rows: seq<Row>, tt: TimeText): (ps: seq<Point>)
    ensures |ps| == |rows|
    ensures forall i :: 0 <= i < |rows| ==> ps[i] == PresentRow(rows[i], tt)
  {
    if rows == [] then [] else [PresentRow(rows[0], tt)] + PresentAll(rows[1..], tt)
  }

  function NotFoundMessage(metric: string): string {
    "Metric not found: " + metric
  }

  // ---------- endpoints ----------

  /**
   * `metric`: 404 exactly when the sanitised table does not exist; a 500 when the database cannot
   * read a given bound; otherwise the selected rows, presented, with `count` their number.
   */
  function Metric(s: Store, metric: string, q: Query, tt: TimeText): (r: Response)
    ensures r.NotFound? <==> TableNames.MetricToTable(metric) !in s
    ensures r.NotFound? ==> r.error == NotFoundMessage(metric) && Status(r) == 404
    ensures r.ServerError? <==>
      TableNames.MetricToTable(metric) in s && (Bound(q.from, tt).Err? || Bound(q.to, tt).Err?)
    ensures r.Series? ==>
      var t := TableNames.MetricToTable(metric);
      var rows := SelectSeries(s[t].rows, Bound(q.from, tt).value, Bound(q.to, tt).value, Limit(q));
      && r.metric == metric
      && r.count == |r.data| == |rows|
      && r.count <= Limit(q)
      && forall i :: 0 <= i < |rows| ==> r.data[i] == PresentRow(rows[i], tt)
  {
    var t := TableNames.MetricToTable(metric);
    if t !in s then NotFound(NotFoundMessage(metric))
    else
      var limit := Limit(q);
      match (Bound(q.from, tt), Bound(q.to, tt))
      case (Ok(lo), Ok(hi)) =>
        var data := PresentAll(SelectSeries(s[t].rows, lo, hi, limit), tt);
        Series(metric, |data|, data)
      case _ => ServerError
  }

  /** `ORDER BY captured_at DESC LIMIT 1`: a row captured no earlier than any other (the first such in id order). */
  function Newest(rows: seq<Row>): (m: Row)
    requires rows != []
    ensures m in rows
    ensures forall x :: x in rows ==> x.capturedAt <= m.capturedAt
  {
    if |rows| == 1 then rows[0]
    else
      var rest := Newest(rows[1..]);
      assert forall x :: x in rows ==> x == rows[0] || x in rows[1..];
      if rows[0].capturedAt >= rest.capturedAt then rows[0] else rest
  }

  /** `latest`: 404 exactly when the sanitised table does not exist; `data` null (not 404) for an empty table. */
  function LatestOf(s: Store, metric: string, tt: TimeText): (r: Response)
    ensures r.NotFound? <==> TableNames.MetricToTable(metric) !in s
    ensures r.NotFound? ==> r.error == NotFoundMessage(metric) && Status(r) == 404
    ensures !r.NotFound? ==> r.Latest? && r.metric == metric && Status(r) == 200
    ensures r.Latest? ==>
      var rows := s[TableNames.MetricToTable(metric)].rows;
      && (r.point.None? <==> rows == [])
      && (r.point.Some? ==> exists x :: x in rows && r.point.value == PresentRow(x, tt)
                              && forall y :: y in rows ==> y.capturedAt <= x.capturedAt)
  {
    var t := TableNames.MetricToTable(metric);
    if t !in s then NotFound(NotFoundMessage(metric))
    else if s[t].rows == [] then Latest(metric, None)
    else
      var m := Newest(s[t].rows);
      Latest(metric, Some(PresentRow(m, tt)))
  }

  /**
   * The catalog filter `LIKE 'cs_%'`: on PostgreSQL `_` is a wildcard; on MySQL it is escaped, and
   * letters are compared without case, as MariaDB's catalog collation `utf8mb3_general_ci` does.
   * Under MySQL 8's `utf8mb3_bin` the comparison is case-sensitive. The difference never reaches
   * the listing: a name without a lower-case `cs_` is dropped by `str_starts_with` afterwards.
   */
  predicate CatalogLike(p: Platform, n: string) {
    |n| >= 3 &&
    if p == Postgres then n[0] == 'c' && n[1] == 's'
    else TableNames.LowerChar(n[0]) == 'c' && TableNames.LowerChar(n[1]) == 's' && n[2] == '_'
  }

  predicate HasPrefix(n: string) {
    |n| >= |TableNames.Prefix| && n[..|TableNames.Prefix|] == TableNames.Prefix
  }

  /** The catalog query: the matching table names, in table-name order. */
  method CatalogQuery(s: Store, p: Platform) returns (names: seq<string>)
    ensures Collation.StrictlySorted(names)
    ensures forall n :: n in names <==> n in s && CatalogLike(p, n)
  {
    names := Collation.SortNames(set n | n in s && CatalogLike(p, n));
  }

  /** The controller's loop over the catalog rows: keep the names starting with `cs_`, without it. */
  function StripPrefix(names: seq<string>): (ms: seq<string>)
    ensures |ms| <= |names|
    ensures forall m :: m in ms <==> TableNames.Prefix + m in names
    ensures Collation.StrictlySorted(names) ==> Collation.StrictlySorted(ms)
  {
    if names == [] then []
    else
      var rest := StripPrefix(names[1..]);
      var n := names[0];
      assert forall m :: TableNames.Prefix + m in names <==> TableNames.Prefix + m == n || TableNames.Prefix + m in names[1..];
      if HasPrefix(n) then
        var m := n[|TableNames.Prefix|..];
        assert n == TableNames.Prefix + m;
        StrippedHeadFirst(names, rest);
        [m] + rest
      else
        assert forall m :: TableNames.Prefix + m != n;
        rest
  }

  /** In sorted catalog rows, the first stripped name sorts before every name stripped from the rest. */
  lemma StrippedHeadFirst(names: seq<string>, rest: seq<string>)
    requires names != [] && HasPrefix(names[0])
    requires forall m :: m in rest ==> TableNames.Prefix + m in names[1..]
    ensures Collation.StrictlySorted(names) ==>
      forall y :: y in rest ==> Collation.Less(names[0][|TableNames.Prefix|..], y)
  {
    var m := names[0][|TableNames.Prefix|..];
    assert names[0] == TableNames.Prefix + m;
    if Collation.StrictlySorted(names) {
      forall y | y in rest ensures Collation.Less(m, y) {
        var k :| 0 <= k < |names[1..]| && names[1..][k] == TableNames.Prefix + y;
        assert Collation.Less(names[0], names[k + 1]);
        Collation.BelowSharedPrefix(TableNames.Prefix, m, y);
      }
    }
  }

  /**
   * `list`: the table names that start with `cs_`, prefix removed, in table-name order, with
   * `count` their number. In a well-formed store every listed name maps back, through the
   * controller's sanitiser, onto the table it came from.
   */
  method List(s: Store, p: Platform) returns (r: Response)
    ensures r.MetricList?
    ensures r.count == |r.metrics|
    ensures Collation.StrictlySorted(r.metrics)
    ensures forall m :: m in r.metrics <==> TableNames.Prefix + m in s
    ensures WellFormed(s) ==> forall m :: m in r.metrics ==> TableNames.MetricToTable(m) == TableNames.Prefix + m
  {
    var names := CatalogQuery(s, p);
    forall m | TableNames.Prefix + m in s ensures TableNames.Prefix + m in names {
      assert (TableNames.Prefix + m)[..3] == "cs_";
    }
    var metrics := StripPrefix(names);
    if WellFormed(s) {
      forall m | m in metrics ensures TableNames.MetricToTable(m) == TableNames.Prefix + m {
        ListedRoundTrip(s, m);
      }
    }
    r := MetricList(|metrics|, metrics);
  }

  /**
   * In a well-formed store a listed name looks up the table it came from: `metric` and `latest`
   * both find it.
   */
  lemma ListedRoundTrip(s: Store, m: string)
    requires WellFormed(s) && TableNames.Prefix + m in s
    ensures TableNames.MetricToTable(m) == TableNames.Prefix + m
    ensures forall q, tt :: !Metric(s, m, q, tt).NotFound?
    ensures forall tt :: LatestOf(s, m, tt).Latest?
  {
    var n := TableNames.Prefix + m;
    assert n[|TableNames.Prefix|..] == m;
    TableNames.ListedNameRoundTrip(n);
  }

  /** The last row of a sorted sequence is captured no earlier than any of its rows. */
  lemma SortedLastIsNewest(series: seq<Row>, m: Row)
    requires SortedByTime(series) && m in series
    ensures m.capturedAt <= series[|series| - 1].capturedAt
  {
    var k :| 0 <= k < |series| && series[k] == m;
    if k < |series| - 1 {
      assert series[k].capturedAt <= series[|series| - 1].capturedAt;
    }
  }

  /**
   * What the fetch command stores is what the API serves: a value it normalised from a finite
   * rendering is served as that very decimal, and a value it could not read is served as null.
   */
  lemma StoredValueServed(v: Upstream.JsonValue, fmt: Numeric.Formatter)
    ensures var stored := Numeric.ToNumericString(v, fmt);
      && (stored.None? ==> PresentValue(stored).None?)
      && (stored.Some? && Numeric.RendersFinite(v, fmt) ==> PresentValue(stored) == Some(FloatOf(stored.value)))
  {
  }

  /** Without bounds the `WHERE` clause keeps every row. */
  lemma {:induction false} WhereAll(rows: seq<Row>)
    ensures Where(rows, None, None) == rows
  {
    if rows != [] {
      WhereAll(rows[1..]);
      assert rows == [rows[0]] + rows[1..];
    }
  }

  /** Without bounds and with a limit covering the table, the series is the whole table, reordered. */
  lemma SeriesAllRows(rows: seq<Row>, limit: nat)
    requires limit >= |rows|
    ensures multiset(SelectSeries(rows, None, None, limit)) == multiset(rows)
  {
    WhereAll(rows);
    SeriesWhole(rows, None, None, limit);
  }

  /**
   * With no bounds and a limit covering every row, the series holds every row and ends with a row
   * captured when the one `latest` picks was.
   */
  lemma LatestEndsSeries(rows: seq<Row>, limit: nat)
    requires rows != [] && limit >= |rows|
    ensures |SelectSeries(rows, None, None, limit)| == |rows|
    ensures SelectSeries(rows, None, None, limit)[|rows| - 1].capturedAt == Newest(rows).capturedAt
  {
    var series := SelectSeries(rows, None, None, limit);
    assert SortedByTime(series) && multiset(series) == multiset(rows) by {
      SeriesAllRows(rows, limit);
    }
    SortedPermutationEndsNewest(series, rows);
  }

  /** A sorted rearrangement of a table ends at the timestamp of the table's newest row. */
  lemma SortedPermutationEndsNewest(series: seq<Row>, rows: seq<Row>)
    requires rows != [] && SortedByTime(series) && multiset(series) == multiset(rows)
    ensures |series| == |rows|
    ensures series[|rows| - 1].capturedAt == Newest(rows).capturedAt
  {
    assert |series| == |rows| by {
      assert |multiset(series)| == |multiset(rows)|;
    }
    var m := Newest(rows);
    var last := series[|series| - 1];
    assert last in rows by {
      assert last in multiset(series);
    }
    assert m in series by {
      assert m in multiset(rows);
    }
    SortedLastIsNewest(series, m);
  }
}

=== FILE: table_names.dfy ===
/**
 * The metric-key to table-name sanitiser.
 *
 * Both console commands map a key with `'cs_' . preg_replace('/[^a-z0-9_]+/i', '_', strtolower(key))`;
 * the API controller maps a route parameter with `'cs_' . strtolower(preg_replace(...))`, lowering
 * after the replacement. The regular expression is case-insensitive, so a "word" character is an
 * ASCII letter of either case, a digit or `_`, and every maximal run of other characters becomes a
 * single `_`. PHP strings are bytes; here a key is a sequence of characters. Every byte of a
 * multi-byte UTF-8 character lies outside the word class, so runs, and therefore results, agree.
 */
module TableNames {

  /** The namespace marker every metric table carries. */
  const Prefix: string := "cs_"

  predicate IsDigit(c: char) { '0' <= c <= '9' }
  predicate IsUpper(c: char) { 'A' <= c <= 'Z' }
  predicate IsLower(c: char) { 'a' <= c <= 'z' }

  /** A character the case-insensitive class `[a-z0-9_]` accepts. */
  predicate IsWordChar(c: char) { IsLower(c) || IsUpper(c) || IsDigit(c) || c == '_' }

  /** A character that may appear in a table name after the prefix: `[a-z0-9_]`. */
  predicate IsSafeChar(c: char) { IsLower(c) || IsDigit(c) || c == '_' }

  predicate AllSafe(s: string) { forall i :: 0 <= i < |s| ==> IsSafeChar(s[i]) }
  predicate AllWord(s: string) { forall i :: 0 <= i < |s| ==> IsWordChar(s[i]) }

  /** ASCII `strtolower` of one character. */
  function LowerChar(c: char): (r: char)
    ensures IsUpper(c) ==> IsLower(r) && r as int == c as int + 32
    ensures !IsUpper(c) ==> r == c
    ensures IsWordChar(r) <==> IsWordChar(c)
  {
    if IsUpper(c) then (c as int + 32) as char else c
  }

  /** ASCII `strtolower`. */
  function ToLower(s: string): (r: string)
    ensures |r| == |s|
    ensures forall i :: 0 <= i < |s| ==> r[i] == LowerChar(s[i])
  {
    if s == [] then [] else [LowerChar(s[0])] + ToLower(s[1..])
  }

  /** Drops the leading run of non-word characters. */
  function DropNonWord(s: string): (r: string)
    ensures |r| <= |s|
    ensures r == [] || IsWordChar(r[0])
  {
    if s == [] || IsWordChar(s[0]) then s else DropNonWord(s[1..])
  }

  /** `preg_replace('/[^a-z0-9_]+/i', '_', s)`: each maximal run of non-word characters becomes one `_`. */
  function CollapseRuns(s: string): (r: string)
    decreases |s|
  {
    if s == [] then []
    else if IsWordChar(s[0]) then [s[0]] + CollapseRuns(s[1..])
    else "_" + CollapseRuns(DropNonWord(s[1..]))
  }

  /** The table name both console commands derive from a key. */
  function TableName(key: string): string {
    Prefix + CollapseRuns(ToLower(key))
  }

  /** The table name the API controller derives from a route parameter (`metricToTable`). */
  function MetricToTable(metric: string): string {
    Prefix + ToLower(CollapseRuns(metric))
  }

  /** A key whose table would be the bare prefix is skipped by both commands. */
  predicate Skipped(key: string) {
    TableName(key) == Prefix
  }

  /** The shape of every name the sanitiser produces for a key it does not skip. */
  predicate IsTableName(n: string) {
    |n| > |Prefix| && n[..|Prefix|] == Prefix && AllSafe(n[|Prefix|..])
  }

  /** The replacement never yields a non-word character, keeps emptiness, and never grows the input. */
  lemma {:induction false} CollapseRunsShape(s: string)
    ensures AllWord(CollapseRuns(s))
    ensures |CollapseRuns(s)| <= |s|
    ensures CollapseRuns(s) == [] <==> s == []
    decreases |s|
  {
    if s == [] {
    } else if IsWordChar(s[0]) {
      CollapseRunsShape(s[1..]);
    } else {
      CollapseRunsShape(DropNonWord(s[1..]));
    }
  }

  /** A string made of word characters only is left unchanged by the replacement. */
  lemma {:induction false} CollapseRunsFixesWords(s: string)
    requires AllWord(s)
    ensures CollapseRuns(s) == s
  {
    if s != [] {
      CollapseRunsFixesWords(s[1..]);
      assert s == [s[0]] + s[1..];
    }
  }

  lemma {:induction false} DropNonWordCommutesWithLower(s: string)
    ensures DropNonWord(ToLower(s)) == ToLower(DropNonWord(s))
  {
    if s != [] {
      assert ToLower(s)[1..] == ToLower(s[1..]);
      if !IsWordChar(s[0]) {
        DropNonWordCommutesWithLower(s[1..]);
      }
    }
  }

  /** Lowering before or after the case-insensitive replacement gives the same string. */
  lemma {:induction false} LowerCommutesWithCollapse(s: string)
    ensures CollapseRuns(ToLower(s)) == ToLower(CollapseRuns(s))
    decreases |s|
  {
    if s != [] {
      var t := ToLower(s);
      assert t[1..] == ToLower(s[1..]);
      if IsWordChar(s[0]) {
        LowerCommutesWithCollapse(s[1..]);
        assert ToLower([s[0]] + CollapseRuns(s[1..])) == [LowerChar(s[0])] + ToLower(CollapseRuns(s[1..]));
      } else {
        DropNonWordCommutesWithLower(s[1..]);
        LowerCommutesWithCollapse(DropNonWord(s[1..]));
        assert ToLower("_" + CollapseRuns(DropNonWord(s[1..])))
            == "_" + ToLower(CollapseRuns(DropNonWord(s[1..])));
      }
    }
  }

  /** Lowering a string of word characters yields a string of safe characters. */
  lemma LowerOfWordIsSafe(s: string)
    requires AllWord(s)
    ensures AllSafe(ToLower(s))
  {
  }

  /** The controller's copy of the sanitiser agrees with the commands' copy on every input. */
  lemma SanitiserCopiesAgree(key: string)
    ensures MetricToTable(key) == TableName(key)
  {
    LowerCommutesWithCollapse(key);
  }

  /**
   * The table name is the prefix followed by `[a-z0-9_]` characters, and exactly the empty key is
   * skipped: an all-punctuation key still yields the non-empty suffix `_`.
   */
  lemma TableNameShape(key: string)
    ensures TableName(key)[..|Prefix|] == Prefix
    ensures AllSafe(TableName(key)[|Prefix|..])
    ensures Skipped(key) <==> key == []
    ensures !Skipped(key) <==> IsTableName(TableName(key))
  {
    var lowered := ToLower(key);
    CollapseRunsShape(lowered);
    LowerCommutesWithCollapse(key);
    LowerOfWordIsSafe(CollapseRuns(key));
    assert TableName(key)[|Prefix|..] == CollapseRuns(lowered);
  }

  /** Sanitising the suffix of a table name again leaves the whole name unchanged. */
  lemma SanitiserIdempotent(key: string)
    ensures var t := TableName(key); TableName(t[|Prefix|..]) == t
  {
    TableNameShape(key);
    var suffix := TableName(key)[|Prefix|..];
    SafeNameIsFixed(suffix);
  }

  /** A suffix of safe characters is mapped back onto its own table by both copies of the sanitiser. */
  lemma SafeNameIsFixed(suffix: string)
    requires AllSafe(suffix)
    ensures TableName(suffix) == Prefix + suffix
    ensures MetricToTable(suffix) == Prefix + suffix
  {
    assert ToLower(suffix) == suffix;
    CollapseRunsFixesWords(suffix);
  }

  /** Stripping the prefix from a well-formed table name and mapping it back yields the same table. */
  lemma ListedNameRoundTrip(n: string)
    requires IsTableName(n)
    ensures MetricToTable(n[|Prefix|..]) == n
    ensures TableName(n[|Prefix|..]) == n
    ensures !Skipped(n[|Prefix|..])
  {
    SafeNameIsFixed(n[|Prefix|..]);
    assert n == Prefix + n[|Prefix|..];
  }
}

=== FILE: upstream.dfy ===
/**
 * What the HTTP fetch of the upstream statistics endpoint hands to the two console commands.
 * The request itself (client, URL, 20-second timeout, JSON decoding) is not modelled: its
 * outcome is an input.
 */
module Upstream {

  /** A decoded JSON value, as PHP's decoder presents it. */
  datatype JsonValue =
    | JNull
    | JBool(b: bool)
    | JInt(i: int)
    | JFloat(x: real)
    | JString(s: string)
    | JArray(items: seq<JsonValue>)
    | JObject(members: seq<Entry>)

  /** One key/value pair of the decoded document, in document order. */
  datatype Entry = Entry(key: string, value: JsonValue)

  /**
   * The three ways the fetch can end: the request threw (network failure, timeout, a body that is
   * not JSON or not a JSON array), the decoded body was not a PHP array, or it was an array whose
   * pairs are `entries`. The commands call `toArray(false)`, so an HTTP error status does not throw:
   * a 4xx or 5xx response whose body is a JSON object arrives as a `Document` like any other. A
   * JSON list also decodes to a PHP array; its entries carry the keys "0", "1", ...
   *
   * Two shapes are wider than what PHP can produce: `toArray` already throws on a body that is not
   * an array, so `NotAnArray` mirrors a guard that cannot fire, and `entries` may repeat a key,
   * which a decoded PHP array cannot.
   */
  datatype Fetched = RequestFailed | NotAnArray | Document(entries: seq<Entry>)
}

=== FILE: wrappers.dfy ===
/** Failure-compatible wrappers shared by every module of the model. */
module Wrappers {

  /** An optional value: a nullable column, a missing query parameter. */
  datatype Option<+T> = None | Some(value: T)

  /** The outcome of a database statement or of a sequence of them. */
  datatype Result<+R, +E> = Ok(value: R) | Err(error: E)
}
